=== FILE: README.md ===
# Sticky.io checkout and webhook routes, modelled in Dafny

This project models the two server routes of a checkout page that sells
through the Sticky.io order gateway.

- **Checkout** (`POST /api/checkout`) validates the order and, when gateway
  credentials are missing, answers with a simulated success. Otherwise it
  sends one `new_order` call per product.
  - Each call carries a fixed, ordered list of form parameters.
  - Once the first successful order has returned a truthy customer id, every
    later call carries upsell linkage to that order. A later success never
    starts linkage.
  - The gateway's answers are folded into one response: 200 if any order
    succeeded, 500 otherwise.
- **Webhook** (`POST /api/webhooks/sticky`) reads the body as JSON, or as
  form fields when it is not JSON.
  - It picks the event type, order id and customer id from several key
    spellings.
  - It routes the lower-cased event type through a fixed alias table to one of
    eleven handlers, then logs the event.
  - It always answers 200.
  - `GET` echoes a `challenge` parameter, or reports that the endpoint is alive.

Files:

- `js.dfy` (module `Js`): the JavaScript value semantics the routes depend on.
  - Parsed JSON values and truthiness.
  - `a || b`, and `obj[key]` reading `undefined` for a missing key.
  - `String(v)`, `padStart`, and ASCII `toLowerCase`.
- `checkout_params.dfy` (module `CheckoutParams`): `detectCardType`, the
  expiry expression, and the form parameters for one product.
  - The parameters are built as seven blocks in append order.
  - No two parameters share a wire name, so reading a parameter back by its
    name, as `URLSearchParams.get` does, finds the value that was appended.
- `checkout.dfy` (module `Checkout`): the per-product loop as a left fold and
  the POST handler.
  - The fold is related to reference definitions: each product's own entry,
    and the first accepted reply.
- `webhook.dfy` (module `Webhook`): the webhook side.
  - Payload reading, key-fallback extraction and the alias table.
  - Each handler as the trace of the effects it announces.
  - The acknowledgement, and `GET`.

The following stay external and are given to the model as inputs:

- The gateway: one `GatewayOutcome` per product, either a thrown call or the
  reply's fields.
- The environment credentials.
- The `x-forwarded-for` header.
- The clock-derived `TEST-...` mock ids.

## Model

| member | source | states |
|---|---|---|
| CheckoutParams.DetectCardType | app/api/checkout/route.js:200-211 | The label is `amex`, `master` or `discover` exactly when the card number starts with 3, 5 or 6. It is `visa` in every other case: no number, an empty number, a leading 1 or 4, or any other character. |
| Js.PadStart | app/api/checkout/route.js:99 | Padding reaches the requested width, or leaves a longer string as it is. The result ends with the input, and every added character is the fill character. |
| CheckoutParams.ExpiryString | app/api/checkout/route.js:99 | An absent month throws. Otherwise the month is left-padded with '0' to at least two characters, keeps the typed month as its tail, and is followed by the year text (`undefined` when the year is absent). |
| CheckoutParams.ExpiryKeepsFullYear | app/api/checkout/route.js:99 | Month '3' with year '2025' gives '032025': the year is not cut to two digits. |
| CheckoutParams.OrDefault | app/api/checkout/route.js:86-104 | `billingCountry \|\| 'US'` and `x-forwarded-for \|\| '127.0.0.1'`: the value sent is the field when it is non-empty, and the fallback exactly when the field is absent, empty or the fallback itself, so it is never empty. |
| CheckoutParams.NameRoundTrip | app/api/checkout/route.js:44-106 | Every parameter's wire name reads back, through the inverse name table, as that parameter. |
| CheckoutParams.WireNameInjective | app/api/checkout/route.js:44-106 | Two parameters with the same wire name are the same parameter. |
| CheckoutParams.GetParamAgrees | app/api/checkout/route.js:41-107 | Reading a parameter back by its wire name, as `URLSearchParams.get` does, gives the value of its first occurrence. |
| CheckoutParams.BuildParams | app/api/checkout/route.js:41-107 | A request has 31 parameters, plus one when the product is '1', plus four when a truthy customer id has been captured. |
| CheckoutParams.BuildParamsDistinct | app/api/checkout/route.js:41-107 | One request never appends the same parameter twice, nor the same wire name twice, so reading any name back is unambiguous. |
| CheckoutParams.OrderRule | app/api/checkout/route.js:44-49 | Every call is a `NewOrder` for campaign '1' with shipping '2', and its `productId` is the id of the product being sent. |
| CheckoutParams.CustomerRule | app/api/checkout/route.js:66-69 | `email`, `firstName`, `lastName` and `phone` carry the body's fields as `String(v)` gives them, 'undefined' for an absent field. |
| CheckoutParams.BillingModelRule | app/api/checkout/route.js:51-58 | `billing_model_id` is '1' for product '4' and '3' for every other product. |
| CheckoutParams.OfferRule | app/api/checkout/route.js:60-63 | `offer_id=1` is present exactly when the product id is '1', and absent otherwise. |
| CheckoutParams.UpsellRule | app/api/checkout/route.js:71-77 | With a truthy captured customer id, the four linkage parameters carry that id, '1', '1' and the captured main order id. Otherwise none of the four names is present. |
| CheckoutParams.AddressBlocksAgree | app/api/checkout/route.js:79-95 | For every address key, the billing and shipping parameters have the same value, taken from the billing fields of the body. |
| CheckoutParams.PaymentRule | app/api/checkout/route.js:97-107 | The payment parameters carry the card number as typed, the evaluated expiry, the CVV and the guessed network. The client address defaults to 127.0.0.1. The payment type is always 'CREDITCARD', the transaction type always 'Sale', and test mode always '1'. |
| Checkout.Step | app/api/checkout/route.js:40-165 | One iteration adds one call, built from the ids captured so far, and the product's own entry. It captures the ids only on a success while none has been captured, and otherwise leaves them alone. |
| Checkout.RunLoop | app/api/checkout/route.js:40-165 | The loop makes exactly one call per product and records at most one entry per product. |
| Checkout.EntryFor | app/api/checkout/route.js:111-164 | A thrown call gives a failed entry carrying its message. An entry succeeds exactly when the reply has a truthy `order_id`/`orderId`. A success entry carries the product id, the order id, the price and the whole reply. A reply with no order id but `error_found` '1' or 1 gives a failed entry carrying `error_message`. A reply with neither an order id nor an error flag leaves no entry. |
| Checkout.FirstAccepted | app/api/checkout/route.js:133-140 | Returns the position of the first reply with a truthy order id, or None exactly when no reply has one. |
| Checkout.LoopOrders | app/api/checkout/route.js:111-164 | The `orders` list is each product's own entry, in order, whatever was captured along the way. |
| Checkout.LoopCaptures | app/api/checkout/route.js:136-140 | `mainOrderId` and `customerId` end up as the first successful reply's ids, and are `null` when nothing succeeded. `mainOrderId` is truthy exactly when some order succeeded. |
| Checkout.LoopCalls | app/api/checkout/route.js:40-77 | Call `i` is built from product `i` and the ids captured from the outcomes before it. |
| Checkout.CapturedBefore | app/api/checkout/route.js:136-140 | The customer id captured before call `i` is truthy exactly when an earlier reply was the first success and named a truthy customer. The captured ids are then that reply's. |
| Checkout.UpsellLinkage | app/api/checkout/route.js:71-140 | Call `i` carries `isUpsell` exactly when an earlier product was the first success with a truthy customer id. It then points at that order and that customer. The first call is never linked. |
| Checkout.CallsFollowProducts | app/api/checkout/route.js:40-49 | With credentials and an expiry month, there is one call per product, and call `i`'s `productId` is product `i`'s id. |
| Checkout.CountSucceeded | app/api/checkout/route.js:168 | The success count is at most the number of entries, and positive exactly when some entry succeeded. |
| Checkout.EntriesSucceed | app/api/checkout/route.js:167-170 | Some entry succeeds exactly when some gateway reply carried a truthy order id. |
| Checkout.HandleCheckout | app/api/checkout/route.js:3-198 | The answer is 400 exactly when the body is not an object or has no non-empty `products` array, and then no call is made. The status is always 200, 400 or 500. At most one call is made per product, and the reported orders never outnumber the calls. |
| Checkout.SimulatedCheckout | app/api/checkout/route.js:20-32 | Without credentials, no call is made. The answer is a success with one entry per product, in order, each with the product's id and price and the shared mock order id. |
| Checkout.MissingExpiryMonth | app/api/checkout/route.js:188-197 | With credentials but no expiry month, the first `padStart` throws before any call, and the outer catch answers 500. |
| Checkout.CheckoutOutcome | app/api/checkout/route.js:167-186 | With credentials and an expiry month, every product is sent. The answer is a 200 `Created` exactly when some reply carried an order id, with the first success's order and customer ids and the orders list. Otherwise it is a 500 with that list. |
| Webhook.FormDecodeKeys | app/api/webhooks/sticky/route.js:26-31 | Form decoding yields exactly the names that occur in the body, each with a string value. |
| Webhook.FormDecodeLastWins | app/api/webhooks/sticky/route.js:29-30 | A name that appears more than once keeps the value of its last occurrence. |
| Webhook.Payload | app/api/webhooks/sticky/route.js:22-32 | Reading a property fails exactly for a JSON `null` body. A JSON object is read as it is, and any other JSON value as an object without keys. A form body is read as its decoded fields: its keys are exactly the names that occur, and each holds the string of its last occurrence. |
| Js.FalsyValues | app/api/webhooks/sticky/route.js:35-46 | The values that `\|\|` skips are exactly `undefined`, `null`, `false`, `0` and the empty string. |
| Js.DecimalRoundTrip | app/api/checkout/route.js:73-76 | `String(n)` writes an integral number as a decimal numeral that reads back as `n`. |
| Webhook.ExtractionRule | app/api/webhooks/sticky/route.js:35-46 | The event type is the first truthy value among `event_type`, `eventType`, `action` and `type`, else 'unknown', so it is always truthy. The order id is the first truthy value among `order_id`, `orderId` and `id`, and the customer id among `customer_id` and `customerId`. Either id is falsy exactly when none of its keys is truthy. |
| Webhook.FindHandlerSpec | app/api/webhooks/sticky/route.js:51-110 | A label switch takes `default` exactly when no label matches. Otherwise the chosen handler sits next to a matching label, and with distinct labels it is that label's handler. |
| Webhook.FindHandlerAliases | app/api/webhooks/sticky/route.js:51-110 | In a switch with distinct labels, a named handler is reached exactly from its own labels. |
| Webhook.AliasTableWellFormed | app/api/webhooks/sticky/route.js:51-106 | No case label occurs twice, and none of them leads to the default branch. |
| Webhook.AliasesDisjoint | app/api/webhooks/sticky/route.js:51-106 | Different handlers have disjoint alias sets, and the unknown-event handler has no alias. |
| Webhook.Route | app/api/webhooks/sticky/route.js:51-110 | An event type reaches the default branch exactly when its lower-cased form is no case label. Otherwise it reaches the handler listed beside that label. |
| Webhook.RouteFollowsTable | app/api/webhooks/sticky/route.js:51-110 | An event type reaches a named handler exactly when its lower-cased form is one of that handler's aliases. It reaches the unknown-event handler exactly when that form is no label. |
| Webhook.RouteIgnoresCase | app/api/webhooks/sticky/route.js:51 | Event types with the same lower-cased form route alike, and lower-casing first changes nothing. |
| Js.LowerIdempotent | app/api/webhooks/sticky/route.js:51 | Lower-casing twice is the same as lower-casing once. |
| Js.LowerHasNoCapitals | app/api/webhooks/sticky/route.js:51 | A lower-cased string contains no ASCII capital. |
| Webhook.RouteApprovedExample | app/api/webhooks/sticky/route.js:58-63 | `approved` reaches the order-success handler. |
| Webhook.RouteUpperCaseExample | app/api/webhooks/sticky/route.js:51-101 | `VOID` reaches the void handler. |
| Webhook.RouteUnknownExample | app/api/webhooks/sticky/route.js:107-110 | `order_shipped` is not an alias, so it reaches the unknown-event handler. |
| Webhook.Dispatch | app/api/webhooks/sticky/route.js:51-110 | Every handler does something. Only the default branch logs an unknown event, and no handler logs the event itself, which happens after the switch. |
| Webhook.StatusUpdateRule | app/api/webhooks/sticky/route.js:145-307 | A handler records no status exactly when it is not one of the order, void or cancel handlers. The order handlers record one status against `order_id \|\| id`. Void and cancel record theirs against `order_id` alone. |
| Webhook.ForwardedFieldsRule | app/api/webhooks/sticky/route.js:233-295 | The subscription-created, -cancelled and -renewed, refund and chargeback handlers each start with one record. Its arguments are the values of fixed snake-case keys, in order, with no camel-case fallback. Only the cancellation adds an e-mail to `email_address`, and only the chargeback adds an alert for `order_id`. |
| Webhook.EmailRule | app/api/webhooks/sticky/route.js:145-263 | At most one e-mail goes out per event, and only to a truthy address. Only the created, success, declined and subscription-cancelled handlers send one: the first three to `email_address \|\| email`, the last to `email_address` only. |
| Webhook.AccessRule | app/api/webhooks/sticky/route.js:173-203 | Access is granted exactly when the success handler runs with a truthy `customer_id \|\| customerId`, and then to that customer. |
| Webhook.DeclineReasonRule | app/api/webhooks/sticky/route.js:206-230 | The payment-failed e-mail carries the first truthy value of `decline_reason` and `reason`, else 'Payment failed', so the reason is always truthy. |
| Webhook.HandleWebhook | app/api/webhooks/sticky/route.js:5-142 | The status is always 200. A failed acknowledgement comes with no effects. A processed one comes with at least one handler effect and ends with the event log. |
| Webhook.WebhookAck | app/api/webhooks/sticky/route.js:21-141 | For the modelled values (see the first line under Left out on string conversion), processing fails exactly when the body is JSON `null` or the event type read is not a string. Otherwise the acknowledgement echoes the event type as sent and the extracted ids. |
| Webhook.WebhookRouting | app/api/webhooks/sticky/route.js:51-119 | An event type whose lower-cased form is an alias of handler `k` runs exactly `k`'s trace, then the event log. |
| Webhook.WebhookUnrouted | app/api/webhooks/sticky/route.js:107-119 | An event type that is no alias runs only the unknown-event log, then the event log. |
| Webhook.FormBodyProcessed | app/api/webhooks/sticky/route.js:26-51 | A form-encoded body is always processed, because its values are strings that can be lower-cased. |
| Webhook.NullBodyFails | app/api/webhooks/sticky/route.js:22-141 | A JSON `null` body is answered 200 with a failed acknowledgement, and nothing is done. |
| Webhook.WebhookExample | app/api/webhooks/sticky/route.js:35-129 | `{"event_type":"VOID","order_id":"42"}` marks order 42 voided, logs the event, and acknowledges 'Webhook VOID processed successfully'. |
| Webhook.HandleGet | app/api/webhooks/sticky/route.js:393-406 | The challenge is echoed verbatim exactly when it is present and non-empty. Otherwise the answer is the health payload naming `/api/webhooks/sticky`. |

## Behaviour worth knowing

- **Card label.** For a card number starting with 5, `detectCardType` returns `master`, not `mastercard`.
- **Expiry year.** The expiry is the padded month followed by the year exactly as typed: month 3 and year 2025 give "032025", not "0325" (`ExpiryKeepsFullYear`).
- **Webhook signature.** The webhook reads the signature header only to log whether it is present. It never verifies the signature and never answers 401.
- **Empty product list.** A checkout with a missing, non-array or empty `products` is answered 400 before anything else happens.

## Left out

- Webhook.HandleWebhook and Checkout.HandleCheckout: objects whose string conversion throws are not modelled. An example is a parsed object with an own non-callable `toString`, such as `{"toString":1}`. `Obj` always has a string form, so the model treats such a value as converting successfully. In the source it throws where it is converted:
  - at `formData.append('customerId', …)` and `'parentOrderId'` (app/api/checkout/route.js:73-76), outside the inner `try`, so the outer catch answers 500;
  - in the log template of app/api/webhooks/sticky/route.js:48, giving a failed acknowledgement;
  - in a helper's log template such as app/api/webhooks/sticky/route.js:319, giving a failed acknowledgement after earlier handler effects.
- Network I/O, `fetch`, the Basic-auth header, and reading response bodies. The gateway is an input sequence of outcomes.
- A gateway body that parses to JSON `null` throws inside the inner `try`. It must be given as a `TransportError`. A reply that parses to a non-object is given as its (empty) field map.
- Console logging, timestamps, and the mock ids derived from `Date.now()`. The mock ids are parameters, and the timestamps are not modelled.
- The texts of error messages in the 400 and 500 answers, and the `details` field of the outer catch. Only the kind of answer and its status are modelled.
- The outer catch's answer when `request.json()` throws is modelled only as a 500 with no calls. The error text is not modelled.
- Prices and `totalAmount` are opaque values that are only echoed. Floating-point arithmetic does not occur in the routes.
- Checkout body fields are modelled as absent or strings. A non-string `cardExpMonth` (which has no `padStart`) is not modelled.
- Checkout.HandleCheckout: assumes every element of `products` is an object. A `null` (or `undefined`) element throws when `.id` is read:
  - without credentials, in `body.products.map(p => …p.id…)` (app/api/checkout/route.js:29), so the outer catch answers 500 where the model answers the simulated success;
  - with credentials, at `formData.append('productId', product.id)` (route.js:49), so the outer catch answers 500 after the orders of the earlier products have already been sent.
- Product ids are modelled as strings. A numeric id, which never equals `'1'` or `'4'` under `===`, is not modelled.
- JSON and URL-encoding parsing internals. A webhook body is given already parsed, as an object, `null`, another JSON value, or the decoded form pairs. A JSON array or scalar is modelled as an object without keys, since none of the keys read exist on it.
- JSON numbers are kept as exact integers, not IEEE-754 doubles. `String(v)` of an integral number is modelled as its full decimal numeral. `JSON.parse` rounding above 2^53 and the exponent form `String` uses from 1e21 upward (`"1e+21"`) are not modelled. This matters only for numeric `customerId` and `parentOrderId` values echoed into later calls.
- Js.PadStart: counts characters as Dafny `char`s. JavaScript counts UTF-16 code units, so a month containing a character outside the Basic Multilingual Plane pads differently.
- `toLowerCase` is modelled for ASCII letters only. Unicode case mapping is not modelled.
- The effect traces record the helper called and some of the values it is given. E-mail effects record only the kind, the address and, for a payment failure, the decline reason. `sendConfirmationEmail` and `sendWelcomeEmail` also receive the order id (app/api/webhooks/sticky/route.js:331, 338), and the cancellation notice also receives the subscription id and end date (route.js:254-259). None of these are recorded. Status updates record the order id and the status, and the record effects record their ids, amounts and reasons. The products arrays, customer names, totals and other logged detail are not recorded.
- The UI pages, the test and debug routes, and `lib/sticky.js` are not part of this model.

=== FILE: checkout.dfy ===
/**
 The checkout POST handler (app/api/checkout/route.js): validation, the
 simulated response when gateway credentials are missing, and the loop that
 sends one `new_order` call per product, threads the first order's ids into
 later calls as upsell linkage, and folds the gateway's answers into one
 result.  The gateway is an input: one outcome per product.
 */
module Checkout {
  import opened Js
  import opened CheckoutParams

  /** What one gateway call came back with: either the call threw (network
      failure; its `error.message`), or the body was read.  A body that is not
      JSON arrives as `{raw_response: text}`. */
  datatype GatewayOutcome =
    | TransportError(message: Json)
    | Reply(fields: map<string, Json>)

  /** `result.order_id || result.orderId` */
  function ReplyOrderId(fields: map<string, Json>): Json
  {
    Or(Get(fields, "order_id"), Get(fields, "orderId"))
  }

  /** `result.customer_id || result.customerId` */
  function ReplyCustomerId(fields: map<string, Json>): Json
  {
    Or(Get(fields, "customer_id"), Get(fields, "customerId"))
  }

  /** A reply that carries a truthy order id is a successful order. */
  predicate Accepted(o: GatewayOutcome)
  {
    o.Reply? && Truthy(ReplyOrderId(o.fields))
  }

  /** `result.error_found === '1' || result.error_found === 1` */
  predicate FlagsError(fields: map<string, Json>)
  {
    Get(fields, "error_found") == Str("1") || Get(fields, "error_found") == Num(1)
  }

  /** One element of the `orders` array of the response. */
  datatype OrderEntry =
    | Simulated(productId: string, mockOrderId: string, price: Json)
    | Placed(productId: string, orderId: Json, price: Json, response: map<string, Json>)
    | Failed(productId: string, error: Json)

  predicate Succeeded(e: OrderEntry)
  {
    !e.Failed?
  }

  /** What the call for one product is built from: the product and the ids
      captured before it. */
  datatype CallArgs = CallArgs(product: Product, customerId: Json, mainOrderId: Json)

  /** The form parameters sent for one call. */
  function Request(body: CheckoutBody, expiry: string, forwardedFor: Option<string>, call: CallArgs): Params
  {
    BuildParams(body, expiry, call.product, call.customerId, call.mainOrderId, forwardedFor)
  }

  /** The variables the loop threads: the calls made so far, `orders`,
      `mainOrderId` and `customerId` (both start as `null`). */
  datatype LoopState = LoopState(calls: seq<CallArgs>, orders: seq<OrderEntry>,
                                 mainOrderId: Json, customerId: Json)

  const Start := LoopState([], [], Null, Null)

  /** One iteration of the loop body for `product`, whose call came back
      with `outcome`: one more call, built from the ids captured so far; the
      product's own entry; and the ids, captured only by a success while none
      has been captured yet. */
  function Step(s: LoopState, product: Product, outcome: GatewayOutcome): (t: LoopState)
    ensures t.calls == s.calls + [CallArgs(product, s.customerId, s.mainOrderId)]
    ensures t.orders == s.orders + EntryFor(product, outcome)
    ensures if Accepted(outcome) && !Truthy(s.mainOrderId)
            then t.mainOrderId == ReplyOrderId(outcome.fields) && t.customerId == ReplyCustomerId(outcome.fields)
            else t.mainOrderId == s.mainOrderId && t.customerId == s.customerId
  {
    var sent := s.(calls := s.calls + [CallArgs(product, s.customerId, s.mainOrderId)]);
    match outcome
    case TransportError(message) =>
      sent.(orders := sent.orders + [Failed(product.id, message)])
    case Reply(fields) =>
      var orderId := ReplyOrderId(fields);
      if Truthy(orderId) then
        var captured :=
          if !Truthy(s.mainOrderId) then sent.(mainOrderId := orderId, customerId := ReplyCustomerId(fields))
          else sent;
        captured.(orders := captured.orders + [Placed(product.id, orderId, product.price, fields)])
      else if FlagsError(fields) then
        sent.(orders := sent.orders + [Failed(product.id, Get(fields, "error_message"))])
      else
        sent
  }

  /** The loop over all products; it never stops early.  Every product costs
      exactly one call, and at most one entry. */
  function RunLoop(products: seq<Product>, outcomes: seq<GatewayOutcome>): (s: LoopState)
    requires |products| == |outcomes|
    ensures |s.calls| == |products|
    ensures |s.orders| <= |products|
    decreases |products|
  {
    if |products| == 0 then Start
    else
      var n := |products| - 1;
      Step(RunLoop(products[..n], outcomes[..n]), products[n], outcomes[n])
  }

  /** The requests of the calls, in order. */
  function Requests(body: CheckoutBody, expiry: string, forwardedFor: Option<string>,
                    calls: seq<CallArgs>): (rs: seq<Params>)
    ensures |rs| == |calls|
    ensures forall i :: 0 <= i < |calls| ==> rs[i] == Request(body, expiry, forwardedFor, calls[i])
  {
    seq(|calls|, i requires 0 <= i < |calls| => Request(body, expiry, forwardedFor, calls[i]))
  }

  // ---------------------------------------------------------------------
  // Reference definitions: each product on its own, and the first success

  /** The entry a product contributes, judged from its own outcome alone. */
  function EntryFor(product: Product, outcome: GatewayOutcome): (es: seq<OrderEntry>)
    ensures |es| <= 1
    ensures outcome.TransportError? ==> es == [Failed(product.id, outcome.message)]
    ensures (|es| == 1 && Succeeded(es[0])) <==> Accepted(outcome)
    ensures Accepted(outcome) ==>
              es == [Placed(product.id, ReplyOrderId(outcome.fields), product.price, outcome.fields)]
    ensures outcome.Reply? && !Accepted(outcome) && FlagsError(outcome.fields) ==>
              es == [Failed(product.id, Get(outcome.fields, "error_message"))]
    ensures outcome.Reply? && !Accepted(outcome) && !FlagsError(outcome.fields) ==> es == []
  {
    match outcome
    case TransportError(message) => [Failed(product.id, message)]
    case Reply(fields) =>
      if Accepted(outcome) then [Placed(product.id, ReplyOrderId(fields), product.price, fields)]
      else if FlagsError(fields) then [Failed(product.id, Get(fields, "error_message"))]
      else []
  }

  function Entries(products: seq<Product>, outcomes: seq<GatewayOutcome>): seq<OrderEntry>
    requires |products| == |outcomes|
  {
    if products == [] then [] else EntryFor(products[0], outcomes[0]) + Entries(products[1..], outcomes[1..])
  }

  /** `j` is the first accepted outcome. */
  predicate IsFirstAccepted(outcomes: seq<GatewayOutcome>, j: int)
  {
    0 <= j < |outcomes| && Accepted(outcomes[j]) && forall k :: 0 <= k < j ==> !Accepted(outcomes[k])
  }

  function FirstAccepted(outcomes: seq<GatewayOutcome>): (r: Option<nat>)
    ensures r.None? <==> forall k :: 0 <= k < |outcomes| ==> !Accepted(outcomes[k])
    ensures r.Some? ==> IsFirstAccepted(outcomes, r.value)
  {
    if outcomes == [] then None
    else if Accepted(outcomes[0]) then Some(0)
    else match FirstAccepted(outcomes[1..])
      case None => None
      case Some(j) => Some(j + 1)
  }

  /** The order id the first success established, or `null`. */
  function CapturedOrderId(outcomes: seq<GatewayOutcome>): Json
  {
    match FirstAccepted(outcomes)
    case None => Null
    case Some(j) => ReplyOrderId(outcomes[j].fields)
  }

  /** The customer id the first success established, or `null`. */
  function CapturedCustomerId(outcomes: seq<GatewayOutcome>): Json
  {
    match FirstAccepted(outcomes)
    case None => Null
    case Some(j) => ReplyCustomerId(outcomes[j].fields)
  }

  lemma FirstAcceptedUnique(outcomes: seq<GatewayOutcome>, j: int, k: int)
    requires IsFirstAccepted(outcomes, j) && IsFirstAccepted(outcomes, k)
    ensures j == k
  {
  }

  /** Extending the outcomes keeps an earlier first success. */
  lemma FirstAcceptedSnoc(outcomes: seq<GatewayOutcome>, o: GatewayOutcome)
    ensures FirstAccepted(outcomes + [o]) ==
      if FirstAccepted(outcomes).Some? then FirstAccepted(outcomes)
      else if Accepted(o) then Some(|outcomes|)
      else None
  {
    var ext := outcomes + [o];
    assert forall k :: 0 <= k < |outcomes| ==> ext[k] == outcomes[k];
    match FirstAccepted(outcomes)
    case Some(j) =>
      assert IsFirstAccepted(ext, j);
      FirstAcceptedUnique(ext, j, FirstAccepted(ext).value);
    case None =>
      if Accepted(o) {
        assert IsFirstAccepted(ext, |outcomes|);
        FirstAcceptedUnique(ext, |outcomes|, FirstAccepted(ext).value);
      } else {
        assert forall k :: 0 <= k < |ext| ==> !Accepted(ext[k]);
      }
  }

  lemma {:induction false} EntriesSnoc(products: seq<Product>, outcomes: seq<GatewayOutcome>,
                                       p: Product, o: GatewayOutcome)
    requires |products| == |outcomes|
    ensures Entries(products + [p], outcomes + [o]) == Entries(products, outcomes) + EntryFor(p, o)
  {
    var ps, os := products + [p], outcomes + [o];
    if products == [] {
      assert ps == [p] && os == [o];
      assert Entries(ps, os) == EntryFor(p, o) + Entries([], []);
    } else {
      assert ps[0] == products[0] && os[0] == outcomes[0];
      assert ps[1..] == products[1..] + [p] && os[1..] == outcomes[1..] + [o];
      var head := EntryFor(products[0], outcomes[0]);
      var rest := Entries(products[1..], outcomes[1..]);
      assert Entries(ps, os) == head + Entries(products[1..] + [p], outcomes[1..] + [o]);
      EntriesSnoc(products[1..], outcomes[1..], p, o);
      assert Entries(products, outcomes) == head + rest;
      assert head + (rest + EntryFor(p, o)) == (head + rest) + EntryFor(p, o);
    }
  }

  // ---------------------------------------------------------------------
  // What the loop computes

  /** Per-item independence: the `orders` list is each product's own entry,
      in order, whatever was captured along the way. */
  lemma {:induction false} LoopOrders(products: seq<Product>, outcomes: seq<GatewayOutcome>)
    requires |products| == |outcomes|
    ensures RunLoop(products, outcomes).orders == Entries(products, outcomes)
  {
    if |products| > 0 {
      var n := |products| - 1;
      LoopOrders(products[..n], outcomes[..n]);
      EntriesSnoc(products[..n], outcomes[..n], products[n], outcomes[n]);
      assert products[..n] + [products[n]] == products;
      assert outcomes[..n] + [outcomes[n]] == outcomes;
    }
  }

  /** `mainOrderId` and `customerId` are those of the first success and are
      never overwritten; with no success both stay `null`. */
  lemma {:induction false} LoopCaptures(products: seq<Product>, outcomes: seq<GatewayOutcome>)
    requires |products| == |outcomes|
    ensures var s := RunLoop(products, outcomes);
      && s.mainOrderId == CapturedOrderId(outcomes)
      && s.customerId == CapturedCustomerId(outcomes)
      && (Truthy(s.mainOrderId) <==> FirstAccepted(outcomes).Some?)
  {
    if |products| > 0 {
      var n := |products| - 1;
      var prev := RunLoop(products[..n], outcomes[..n]);
      LoopCaptures(products[..n], outcomes[..n]);
      FirstAcceptedSnoc(outcomes[..n], outcomes[n]);
      assert outcomes[..n] + [outcomes[n]] == outcomes;
      var first := FirstAccepted(outcomes[..n]);
      if first.Some? {
        assert outcomes[..n][first.value] == outcomes[first.value];
      }
    }
  }

  /** The `i`-th call is built from product `i` and the ids captured from
      the outcomes before it. */
  lemma {:induction false} LoopCalls(products: seq<Product>, outcomes: seq<GatewayOutcome>)
    requires |products| == |outcomes|
    ensures var s := RunLoop(products, outcomes);
      forall i :: 0 <= i < |products| ==>
        s.calls[i] == CallArgs(products[i], CapturedCustomerId(outcomes[..i]), CapturedOrderId(outcomes[..i]))
  {
    if |products| > 0 {
      var n := |products| - 1;
      var prev := RunLoop(products[..n], outcomes[..n]);
      var s := RunLoop(products, outcomes);
      LoopCalls(products[..n], outcomes[..n]);
      LoopCaptures(products[..n], outcomes[..n]);
      forall i | 0 <= i < |products|
        ensures s.calls[i] == CallArgs(products[i], CapturedCustomerId(outcomes[..i]), CapturedOrderId(outcomes[..i]))
      {
        if i < n {
          assert s.calls[i] == prev.calls[i];
          assert outcomes[..n][..i] == outcomes[..i];
          assert products[..n][i] == products[i];
        }
      }
    }
  }


  /** The customer id captured before call `i` is truthy exactly when some
      earlier outcome was the first success and named a truthy customer; the
      captured ids are then that reply's. */
  lemma CapturedBefore(outcomes: seq<GatewayOutcome>, i: nat)
    requires i <= |outcomes|
    ensures Truthy(CapturedCustomerId(outcomes[..i])) <==>
              exists j :: 0 <= j < i && IsFirstAccepted(outcomes, j) && Truthy(ReplyCustomerId(outcomes[j].fields))
    ensures forall j :: 0 <= j < i && IsFirstAccepted(outcomes, j) ==>
              && CapturedCustomerId(outcomes[..i]) == ReplyCustomerId(outcomes[j].fields)
              && CapturedOrderId(outcomes[..i]) == ReplyOrderId(outcomes[j].fields)
  {
    var pre := outcomes[..i];
    assert forall k :: 0 <= k < i ==> pre[k] == outcomes[k];
    match FirstAccepted(pre)
    case None =>
      assert forall k :: 0 <= k < i ==> !Accepted(outcomes[k]);
    case Some(j0) =>
      assert IsFirstAccepted(outcomes, j0);
      forall j | 0 <= j < i && IsFirstAccepted(outcomes, j)
        ensures j == j0
      {
        FirstAcceptedUnique(outcomes, j, j0);
      }
  }

  /** Upsell linkage only ever comes from the first success: call `i`
      carries `isUpsell` exactly when some earlier product was the first
      success and its reply named a truthy customer id, and then it points at
      that order and customer.  The first call is never linked. */
  lemma UpsellLinkage(body: CheckoutBody, expiry: string, forwardedFor: Option<string>,
                      products: seq<Product>, outcomes: seq<GatewayOutcome>, i: nat)
    requires |products| == |outcomes| && i < |products|
    ensures var call := Request(body, expiry, forwardedFor, RunLoop(products, outcomes).calls[i]);
      && (HasKey(call, Link(IsUpsell)) <==>
            exists j :: 0 <= j < i && IsFirstAccepted(outcomes, j) && Truthy(ReplyCustomerId(outcomes[j].fields)))
      && (forall j :: 0 <= j < i && IsFirstAccepted(outcomes, j) && Truthy(ReplyCustomerId(outcomes[j].fields)) ==>
            && Lookup(call, Link(CustomerId)) == Some(ToJsString(ReplyCustomerId(outcomes[j].fields)))
            && Lookup(call, Link(ParentOrderId)) == Some(ToJsString(ReplyOrderId(outcomes[j].fields))))
      && (i == 0 ==> !HasKey(call, Link(IsUpsell)))
  {
    var pre := outcomes[..i];
    LoopCalls(products, outcomes);
    assert RunLoop(products, outcomes).calls[i] == CallArgs(products[i], CapturedCustomerId(pre), CapturedOrderId(pre));
    UpsellRule(body, expiry, products[i], CapturedCustomerId(pre), CapturedOrderId(pre), forwardedFor);
    CapturedBefore(outcomes, i);
  }


  // ---------------------------------------------------------------------
  // The handler

  /** `process.env.STICKY_API_USERNAME` / `STICKY_API_PASSWORD` */
  datatype Credentials = Credentials(username: Option<string>, password: Option<string>)

  predicate Configured(c: Credentials)
  {
    c.username.Some? && c.username.value != "" && c.password.Some? && c.password.value != ""
  }

  /** `await request.json()`: a body that is not JSON throws; one that is
      not an object (null, a number, ...) has no `products`. */
  datatype CheckoutRequest = MalformedJson | NotAnObject | Body(body: CheckoutBody)

  predicate HasProducts(req: CheckoutRequest)
  {
    req.Body? && req.body.products.Items? && |req.body.products.items| > 0
  }

  function ProductsOf(req: CheckoutRequest): seq<Product>
  {
    if HasProducts(req) then req.body.products.items else []
  }

  /** The JSON answer of the handler; `Status` gives its HTTP status. */
  datatype CheckoutResult =
    | InvalidRequest
    | SimulatedSuccess(mockOrderId: string, mockCustomerId: string, productCount: nat,
                       orders: seq<OrderEntry>, totalAmount: Json)
    | Created(orderId: Json, customerId: Json, successCount: nat,
              orders: seq<OrderEntry>, totalAmount: Json)
    | AllFailed(orders: seq<OrderEntry>)
    | ServerError

  function Status(r: CheckoutResult): int
  {
    match r
    case InvalidRequest => 400
    case SimulatedSuccess(_, _, _, _, _) => 200
    case Created(_, _, _, _, _) => 200
    case AllFailed(_) => 500
    case ServerError => 500
  }

  /** The result together with the gateway calls that were made. */
  datatype CheckoutResponse = CheckoutResponse(result: CheckoutResult, calls: seq<Params>)

  /** `orders.filter(o => o.success).length` */
  function CountSucceeded(orders: seq<OrderEntry>): (n: nat)
    ensures n <= |orders|
    ensures n > 0 <==> exists i :: 0 <= i < |orders| && Succeeded(orders[i])
  {
    if orders == [] then 0
    else (if Succeeded(orders[0]) then 1 else 0) + CountSucceeded(orders[1..])
  }

  /** The POST handler.  `mockOrderId` and `mockCustomerId` stand for the
      clock-derived `TEST-...` ids; `outcomes[i]` is what the gateway answers
      to the call for product `i`, should that call be made. */
  function HandleCheckout(req: CheckoutRequest, creds: Credentials, forwardedFor: Option<string>,
                          mockOrderId: string, mockCustomerId: string,
                          outcomes: seq<GatewayOutcome>): (r: CheckoutResponse)
    requires |outcomes| == |ProductsOf(req)|
    ensures Status(r.result) == 400 <==> req.NotAnObject? || (req.Body? && !HasProducts(req))
    ensures Status(r.result) == 400 ==> r.calls == []
    ensures Status(r.result) in {200, 400, 500}
    ensures |r.calls| <= |ProductsOf(req)|
    ensures r.result.Created? || r.result.AllFailed? ==> |r.result.orders| <= |r.calls|
  {
    match req
    case MalformedJson => CheckoutResponse(ServerError, [])
    case NotAnObject => CheckoutResponse(InvalidRequest, [])
    case Body(body) =>
      if !HasProducts(req) then CheckoutResponse(InvalidRequest, [])
      else
        var items := body.products.items;
        if !Configured(creds) then
          var orders := seq(|items|, i requires 0 <= i < |items| => Simulated(items[i].id, mockOrderId, items[i].price));
          CheckoutResponse(SimulatedSuccess(mockOrderId, mockCustomerId, |items|, orders, body.totalAmount), [])
        else
          match ExpiryString(body.cardExpMonth, body.cardExpYear)
          case None => CheckoutResponse(ServerError, [])
          case Some(expiry) =>
            var s := RunLoop(items, outcomes);
            var calls := Requests(body, expiry, forwardedFor, s.calls);
            var n := CountSucceeded(s.orders);
            if n > 0 then CheckoutResponse(Created(s.mainOrderId, s.customerId, n, s.orders, body.totalAmount), calls)
            else CheckoutResponse(AllFailed(s.orders), calls)
  }

  /** Without credentials: success with one entry per product, in order,
      each carrying the same mock order id and that product's id and price;
      no gateway call is made. */
  lemma SimulatedCheckout(req: CheckoutRequest, creds: Credentials, forwardedFor: Option<string>,
                          mockOrderId: string, mockCustomerId: string, outcomes: seq<GatewayOutcome>)
    requires |outcomes| == |ProductsOf(req)|
    requires HasProducts(req) && !Configured(creds)
    ensures var r := HandleCheckout(req, creds, forwardedFor, mockOrderId, mockCustomerId, outcomes);
      var items := req.body.products.items;
      && r.calls == []
      && r.result.SimulatedSuccess?
      && r.result.mockOrderId == mockOrderId
      && |r.result.orders| == |items|
      && forall i :: 0 <= i < |items| ==>
           && Succeeded(r.result.orders[i])
           && r.result.orders[i] == Simulated(items[i].id, mockOrderId, items[i].price)
  {
  }

  /** An absent expiry month throws on the first product, before any call:
      the outer catch answers 500. */
  lemma MissingExpiryMonth(req: CheckoutRequest, creds: Credentials, forwardedFor: Option<string>,
                           mockOrderId: string, mockCustomerId: string, outcomes: seq<GatewayOutcome>)
    requires |outcomes| == |ProductsOf(req)|
    requires HasProducts(req) && Configured(creds) && req.body.cardExpMonth.None?
    ensures var r := HandleCheckout(req, creds, forwardedFor, mockOrderId, mockCustomerId, outcomes);
      r.result == ServerError && r.calls == []
  {
  }

  lemma {:induction false} CountAppend(a: seq<OrderEntry>, b: seq<OrderEntry>)
    ensures CountSucceeded(a + b) == CountSucceeded(a) + CountSucceeded(b)
  {
    if a == [] {
      assert a + b == b;
    } else {
      assert (a + b)[1..] == a[1..] + b;
      CountAppend(a[1..], b);
    }
  }

  /** Some entry succeeds exactly when some outcome was accepted. */
  lemma {:induction false} EntriesSucceed(products: seq<Product>, outcomes: seq<GatewayOutcome>)
    requires |products| == |outcomes|
    ensures CountSucceeded(Entries(products, outcomes)) > 0 <==> FirstAccepted(outcomes).Some?
  {
    if products != [] {
      var head := EntryFor(products[0], outcomes[0]);
      var tail := Entries(products[1..], outcomes[1..]);
      EntriesSucceed(products[1..], outcomes[1..]);
      CountAppend(head, tail);
      assert CountSucceeded(head) > 0 <==> Accepted(outcomes[0]);
    }
  }

  /** With credentials and an expiry month, the loop runs over every
      product and its state is reported. */
  lemma CheckoutRunsLoop(req: CheckoutRequest, creds: Credentials, forwardedFor: Option<string>,
                         mockOrderId: string, mockCustomerId: string, outcomes: seq<GatewayOutcome>)
    requires |outcomes| == |ProductsOf(req)|
    requires HasProducts(req) && Configured(creds) && req.body.cardExpMonth.Some?
    ensures var r := HandleCheckout(req, creds, forwardedFor, mockOrderId, mockCustomerId, outcomes);
      var body := req.body;
      var s := RunLoop(body.products.items, outcomes);
      var expiry := ExpiryString(body.cardExpMonth, body.cardExpYear).value;
      && r.calls == Requests(body, expiry, forwardedFor, s.calls)
      && r.result == if CountSucceeded(s.orders) > 0
                     then Created(s.mainOrderId, s.customerId, CountSucceeded(s.orders), s.orders, body.totalAmount)
                     else AllFailed(s.orders)
  {
  }

  /** With credentials and an expiry month, call `i` orders product `i`:
      its `productId` parameter is that product's id. */
  lemma CallsFollowProducts(req: CheckoutRequest, creds: Credentials, forwardedFor: Option<string>,
                            mockOrderId: string, mockCustomerId: string, outcomes: seq<GatewayOutcome>)
    requires |outcomes| == |ProductsOf(req)|
    requires HasProducts(req) && Configured(creds) && req.body.cardExpMonth.Some?
    ensures var r := HandleCheckout(req, creds, forwardedFor, mockOrderId, mockCustomerId, outcomes);
      var items := req.body.products.items;
      && |r.calls| == |items|
      && forall i :: 0 <= i < |items| ==> Lookup(r.calls[i], Order(ProductId)) == Some(items[i].id)
  {
    var body := req.body;
    var items := body.products.items;
    var expiry := ExpiryString(body.cardExpMonth, body.cardExpYear).value;
    var s := RunLoop(items, outcomes);
    CheckoutRunsLoop(req, creds, forwardedFor, mockOrderId, mockCustomerId, outcomes);
    LoopCalls(items, outcomes);
    forall i | 0 <= i < |items|
      ensures Lookup(Request(body, expiry, forwardedFor, s.calls[i]), Order(ProductId)) == Some(items[i].id)
    {
      OrderRule(body, expiry, s.calls[i].product, s.calls[i].customerId, s.calls[i].mainOrderId, forwardedFor);
    }
  }

  /** With credentials and an expiry month, the answer is 200 with
      `success: true` exactly when some product's reply carried an order
      id; then the main order and customer are the first success's.
      Otherwise it is 500 with the full `orders` list, none of them
      successful.  Either way every product was sent. */
  lemma CheckoutOutcome(req: CheckoutRequest, creds: Credentials, forwardedFor: Option<string>,
                        mockOrderId: string, mockCustomerId: string, outcomes: seq<GatewayOutcome>)
    requires |outcomes| == |ProductsOf(req)|
    requires HasProducts(req) && Configured(creds) && req.body.cardExpMonth.Some?
    ensures var r := HandleCheckout(req, creds, forwardedFor, mockOrderId, mockCustomerId, outcomes);
      var items := req.body.products.items;
      && |r.calls| == |items|
      && (Status(r.result) == 200 <==> exists i :: 0 <= i < |outcomes| && Accepted(outcomes[i]))
      && (r.result.Created? || r.result.AllFailed?)
      && r.result.orders == Entries(items, outcomes)
      && (r.result.Created? ==>
            && r.result.orderId == CapturedOrderId(outcomes)
            && r.result.customerId == CapturedCustomerId(outcomes)
            && Truthy(r.result.orderId))
      && (r.result.AllFailed? ==> forall i :: 0 <= i < |r.result.orders| ==> !Succeeded(r.result.orders[i]))
  {
    var body := req.body;
    var items := body.products.items;
    var expiry := ExpiryString(body.cardExpMonth, body.cardExpYear).value;
    CheckoutRunsLoop(req, creds, forwardedFor, mockOrderId, mockCustomerId, outcomes);
    LoopOrders(items, outcomes);
    LoopCaptures(items, outcomes);
    EntriesSucceed(items, outcomes);
  }
}

=== FILE: checkout_params.dfy ===
/**
 The per-product half of the checkout route: the card-network guess and the
 ordered list of form parameters sent to the gateway's `new_order` endpoint
 for one product (app/api/checkout/route.js, lines 41-107 and 200-211).
 */
module CheckoutParams {
  import opened Js

  /** The gateway parameter names the handler appends, grouped by the block
      of the request they belong to.  Billing and shipping share one set of
      address keys, so "the same key in both blocks" is `Billing(k)` and
      `Shipping(k)`.  `WireName` gives the exact text of each name, and
      `WireNameInjective` shows no two parameters share one. */
  datatype OrderKey = Method | CampaignId | ShippingId | ProductId | BillingModelId | OfferId
  datatype CustomerKey = Email | FirstName | LastName | Phone
  datatype LinkKey = CustomerId | ForceCustomerId | IsUpsell | ParentOrderId
  datatype AddressKey = AddrFirstName | AddrLastName | AddrLine1 | AddrCity | AddrState | AddrZip | AddrCountry
  datatype CardKey = CreditCardNumber | ExpirationDate | Cvv | CreditCardType
  datatype TrailerKey = IpAddress | PaymentType | TranType | TestMode

  datatype Field =
    | Order(order: OrderKey)
    | Customer(customer: CustomerKey)
    | Link(link: LinkKey)
    | Billing(billing: AddressKey)
    | Shipping(shipping: AddressKey)
    | Card(card: CardKey)
    | Trailer(trailer: TrailerKey)

  function WireName(f: Field): string
  {
    match f
    case Order(k) =>
      (match k
       case Method => "method"
       case CampaignId => "campaignId"
       case ShippingId => "shippingId"
       case ProductId => "productId"
       case BillingModelId => "billing_model_id"
       case OfferId => "offer_id")
    case Customer(k) =>
      (match k
       case Email => "email"
       case FirstName => "firstName"
       case LastName => "lastName"
       case Phone => "phone")
    case Link(k) =>
      (match k
       case CustomerId => "customerId"
       case ForceCustomerId => "forceCustomerId"
       case IsUpsell => "isUpsell"
       case ParentOrderId => "parentOrderId")
    case Billing(k) =>
      (match k
       case AddrFirstName => "billingFirstName"
       case AddrLastName => "billingLastName"
       case AddrLine1 => "billingAddress1"
       case AddrCity => "billingCity"
       case AddrState => "billingState"
       case AddrZip => "billingZip"
       case AddrCountry => "billing_country")
    case Shipping(k) =>
      (match k
       case AddrFirstName => "shippingFirstName"
       case AddrLastName => "shippingLastName"
       case AddrLine1 => "shippingAddress1"
       case AddrCity => "shippingCity"
       case AddrState => "shippingState"
       case AddrZip => "shippingZip"
       case AddrCountry => "shippingCountry")
    case Card(k) =>
      (match k
       case CreditCardNumber => "creditCardNumber"
       case ExpirationDate => "expirationDate"
       case Cvv => "CVV"
       case CreditCardType => "creditCardType")
    case Trailer(k) =>
      (match k
       case IpAddress => "ipAddress"
       case PaymentType => "paymentType"
       case TranType => "tranType"
       case TestMode => "testMode")
  }

  /** The parameter a wire name stands for, if any: the inverse of
      `WireName`.  Candidates are narrowed by length before the text is
      compared. */
  function FieldOfName(name: string): Option<Field>
  {
    match |name|
    case 3 =>
      if name == "CVV" then Some(Card(Cvv))
      else None
    case 5 =>
      if name == "email" then Some(Customer(Email))
      else if name == "phone" then Some(Customer(Phone))
      else None
    case 6 =>
      if name == "method" then Some(Order(Method))
      else None
    case 8 =>
      if name == "offer_id" then Some(Order(OfferId))
      else if name == "lastName" then Some(Customer(LastName))
      else if name == "isUpsell" then Some(Link(IsUpsell))
      else if name == "tranType" then Some(Trailer(TranType))
      else if name == "testMode" then Some(Trailer(TestMode))
      else None
    case 9 =>
      if name == "productId" then Some(Order(ProductId))
      else if name == "firstName" then Some(Customer(FirstName))
      else if name == "ipAddress" then Some(Trailer(IpAddress))
      else None
    case 10 =>
      if name == "campaignId" then Some(Order(CampaignId))
      else if name == "shippingId" then Some(Order(ShippingId))
      else if name == "customerId" then Some(Link(CustomerId))
      else if name == "billingZip" then Some(Billing(AddrZip))
      else None
    case 11 =>
      if name == "billingCity" then Some(Billing(AddrCity))
      else if name == "shippingZip" then Some(Shipping(AddrZip))
      else if name == "paymentType" then Some(Trailer(PaymentType))
      else None
    case 12 =>
      if name == "billingState" then Some(Billing(AddrState))
      else if name == "shippingCity" then Some(Shipping(AddrCity))
      else None
    case 13 =>
      if name == "parentOrderId" then Some(Link(ParentOrderId))
      else if name == "shippingState" then Some(Shipping(AddrState))
      else None
    case 14 =>
      if name == "expirationDate" then Some(Card(ExpirationDate))
      else if name == "creditCardType" then Some(Card(CreditCardType))
      else None
    case 15 =>
      if name == "forceCustomerId" then Some(Link(ForceCustomerId))
      else if name == "billingLastName" then Some(Billing(AddrLastName))
      else if name == "billingAddress1" then Some(Billing(AddrLine1))
      else if name == "billing_country" then Some(Billing(AddrCountry))
      else if name == "shippingCountry" then Some(Shipping(AddrCountry))
      else None
    case 16 =>
      if name == "billing_model_id" then Some(Order(BillingModelId))
      else if name == "billingFirstName" then Some(Billing(AddrFirstName))
      else if name == "shippingLastName" then Some(Shipping(AddrLastName))
      else if name == "shippingAddress1" then Some(Shipping(AddrLine1))
      else if name == "creditCardNumber" then Some(Card(CreditCardNumber))
      else None
    case 17 =>
      if name == "shippingFirstName" then Some(Shipping(AddrFirstName))
      else None
    case _ => None
  }

  /** Every parameter name reads back as the parameter it names. */
  lemma NameRoundTrip(f: Field)
    ensures FieldOfName(WireName(f)) == Some(f)
  {
    match f
    case Order(k) => OrderNamesRoundTrip(k);
    case Customer(k) => CustomerNamesRoundTrip(k);
    case Link(k) => LinkNamesRoundTrip(k);
    case Billing(k) => BillingNamesRoundTrip(k);
    case Shipping(k) => ShippingNamesRoundTrip(k);
    case Card(k) => CardNamesRoundTrip(k);
    case Trailer(k) => TrailerNamesRoundTrip(k);
  }

  // The round trip block by block.
  lemma OrderNamesRoundTrip(k: OrderKey) ensures FieldOfName(WireName(Order(k))) == Some(Order(k)) { }
  lemma CustomerNamesRoundTrip(k: CustomerKey) ensures FieldOfName(WireName(Customer(k))) == Some(Customer(k)) { }
  lemma LinkNamesRoundTrip(k: LinkKey) ensures FieldOfName(WireName(Link(k))) == Some(Link(k)) { }
  lemma BillingNamesRoundTrip(k: AddressKey) ensures FieldOfName(WireName(Billing(k))) == Some(Billing(k)) { }
  lemma ShippingNamesRoundTrip(k: AddressKey) ensures FieldOfName(WireName(Shipping(k))) == Some(Shipping(k)) { }
  lemma CardNamesRoundTrip(k: CardKey) ensures FieldOfName(WireName(Card(k))) == Some(Card(k)) { }
  lemma TrailerNamesRoundTrip(k: TrailerKey) ensures FieldOfName(WireName(Trailer(k))) == Some(Trailer(k)) { }

  /** No two parameters share a wire name. */
  lemma WireNameInjective(f: Field, g: Field)
    requires WireName(f) == WireName(g)
    ensures f == g
  {
    NameRoundTrip(f);
    NameRoundTrip(g);
  }

  /** The position of a name's block in the fixed append order. */
  function Section(f: Field): nat
  {
    match f
    case Order(_) => 0
    case Customer(_) => 1
    case Link(_) => 2
    case Billing(_) => 3
    case Shipping(_) => 4
    case Card(_) => 5
    case Trailer(_) => 6
  }

  /** One form parameter, in the order it is appended. */
  type Param = (Field, string)
  type Params = seq<Param>

  /** A product of the request; its price is only ever echoed back. */
  datatype Product = Product(id: string, price: Json)

  /** `body.products`: anything that is not an array is rejected up front. */
  datatype ProductList = NotAnArray | Items(items: seq<Product>)

  /** The parsed checkout body.  Every customer field is either absent
      (`undefined`) or a string, as the checkout form sends it. */
  datatype CheckoutBody = CheckoutBody(
    products: ProductList,
    email: Option<string>,
    firstName: Option<string>,
    lastName: Option<string>,
    phone: Option<string>,
    billingAddress: Option<string>,
    billingCity: Option<string>,
    billingState: Option<string>,
    billingZip: Option<string>,
    billingCountry: Option<string>,
    cardNumber: Option<string>,
    cardExpMonth: Option<string>,
    cardExpYear: Option<string>,
    cardCvv: Option<string>,
    totalAmount: Json)

  /** What `URLSearchParams.append` stores for an optional string field. */
  function Text(o: Option<string>): string
  {
    ToJsString(FromOption(o))
  }

  /** The first character of the card number, when there is one. */
  function LeadingChar(cardNumber: Option<string>): Option<char>
  {
    if cardNumber.Some? && |cardNumber.value| > 0 then Some(cardNumber.value[0]) else None
  }

  /** `detectCardType`: a network label picked from the first character alone.
      An absent or empty number, a leading `1` or `4`, and anything unlisted
      all give `visa`; note the label for a leading `5` is `master`. */
  function DetectCardType(cardNumber: Option<string>): (r: string)
    ensures r in {"visa", "amex", "master", "discover"}
    ensures r == "amex" <==> LeadingChar(cardNumber) == Some('3')
    ensures r == "master" <==> LeadingChar(cardNumber) == Some('5')
    ensures r == "discover" <==> LeadingChar(cardNumber) == Some('6')
    ensures r == "visa" <==> LeadingChar(cardNumber) !in {Some('3'), Some('5'), Some('6')}
  {
    if cardNumber.None? || cardNumber.value == "" then "visa"
    else
      var first := cardNumber.value[0];
      if first == '1' then "visa"
      else if first == '3' then "amex"
      else if first == '4' then "visa"
      else if first == '5' then "master"
      else if first == '6' then "discover"
      else "visa"
  }

  /** `body.cardExpMonth.padStart(2, '0') + body.cardExpYear`.  An absent
      month has no `padStart`, so the expression throws (None); an absent
      year is concatenated as the text "undefined". */
  function ExpiryString(month: Option<string>, year: Option<string>): (r: Option<string>)
    ensures r.None? <==> month.None?
    ensures month.Some? ==>
      var padded := PadStart(month.value, 2, '0');
      && r.value == padded + Text(year)
      && |padded| == (if |month.value| >= 2 then |month.value| else 2)
      && padded[|padded| - |month.value|..] == month.value
  {
    match month
    case None => None
    case Some(m) => Some(PadStart(m, 2, '0') + Text(year))
  }

  /** The year is appended as typed, not cut to two digits: month '3' and
      year '2025' give '032025'. */
  lemma ExpiryKeepsFullYear()
    ensures ExpiryString(Some("3"), Some("2025")) == Some("032025")
  {
    assert PadStart("3", 2, '0') == "03" by {
      assert ['0'] + "3" == "03";
      assert PadStart("03", 2, '0') == "03";
    }
    assert Text(Some("2025")) == "2025";
    assert "03" + "2025" == "032025";
  }

  /** `value || fallback` for an optional string: never empty (for a
      non-empty fallback), the value
      when it is non-empty, and the fallback exactly when the value is
      absent or empty (or is itself the fallback). */
  function OrDefault(value: Option<string>, fallback: string): (r: string)
    ensures fallback != "" ==> r != ""
    ensures r == fallback <==> value.None? || value.value in {"", fallback}
    ensures value.Some? && value.value != "" ==> r == value.value
  {
    if value.Some? && value.value != "" then value.value else fallback
  }

  /** `body.billingCountry || 'US'` */
  function CountryOrDefault(country: Option<string>): string
  {
    OrDefault(country, "US")
  }

  /** `request.headers.get('x-forwarded-for') || '127.0.0.1'` */
  function IpOrDefault(forwardedFor: Option<string>): string
  {
    OrDefault(forwardedFor, "127.0.0.1")
  }

  /** Product `'4'` (the one-time setup fee) uses billing model 1, every other
      product the monthly model 3; only product `'1'` carries an offer. */
  function OrderBlock(product: Product): Params
  {
    [(Order(Method), "NewOrder"), (Order(CampaignId), "1"), (Order(ShippingId), "2"),
     (Order(ProductId), product.id),
     (Order(BillingModelId), if product.id == "4" then "1" else "3")]
    + (if product.id == "1" then [(Order(OfferId), "1")] else [])
  }

  function CustomerBlock(body: CheckoutBody): Params
  {
    [(Customer(Email), Text(body.email)), (Customer(FirstName), Text(body.firstName)),
     (Customer(LastName), Text(body.lastName)), (Customer(Phone), Text(body.phone))]
  }

  /** Linkage to the first successful order, added only while a truthy
      customer id has been captured. */
  function UpsellBlock(customerId: Json, mainOrderId: Json): Params
  {
    if Truthy(customerId) then
      [(Link(CustomerId), ToJsString(customerId)), (Link(ForceCustomerId), "1"),
       (Link(IsUpsell), "1"), (Link(ParentOrderId), ToJsString(mainOrderId))]
    else []
  }

  /** The value both address blocks give an address key: everything comes
      from the billing fields of the body. */
  function AddressValue(body: CheckoutBody, k: AddressKey): string
  {
    match k
    case AddrFirstName => Text(body.firstName)
    case AddrLastName => Text(body.lastName)
    case AddrLine1 => Text(body.billingAddress)
    case AddrCity => Text(body.billingCity)
    case AddrState => Text(body.billingState)
    case AddrZip => Text(body.billingZip)
    case AddrCountry => CountryOrDefault(body.billingCountry)
  }

  function BillingBlock(body: CheckoutBody): Params
  {
    [(Billing(AddrFirstName), Text(body.firstName)), (Billing(AddrLastName), Text(body.lastName)),
     (Billing(AddrLine1), Text(body.billingAddress)), (Billing(AddrCity), Text(body.billingCity)),
     (Billing(AddrState), Text(body.billingState)), (Billing(AddrZip), Text(body.billingZip)),
     (Billing(AddrCountry), CountryOrDefault(body.billingCountry))]
  }

  function ShippingBlock(body: CheckoutBody): Params
  {
    [(Shipping(AddrFirstName), Text(body.firstName)), (Shipping(AddrLastName), Text(body.lastName)),
     (Shipping(AddrLine1), Text(body.billingAddress)), (Shipping(AddrCity), Text(body.billingCity)),
     (Shipping(AddrState), Text(body.billingState)), (Shipping(AddrZip), Text(body.billingZip)),
     (Shipping(AddrCountry), CountryOrDefault(body.billingCountry))]
  }

  function PaymentBlock(body: CheckoutBody, expiry: string): Params
  {
    [(Card(CreditCardNumber), Text(body.cardNumber)), (Card(ExpirationDate), expiry),
     (Card(Cvv), Text(body.cardCvv)), (Card(CreditCardType), DetectCardType(body.cardNumber))]
  }

  function TrailerBlock(forwardedFor: Option<string>): Params
  {
    [(Trailer(IpAddress), IpOrDefault(forwardedFor)), (Trailer(PaymentType), "CREDITCARD"),
     (Trailer(TranType), "Sale"), (Trailer(TestMode), "1")]
  }

  /** The form parameters for one product, in append order.  `expiry` is the
      already-evaluated expiration expression; `customerId` and `mainOrderId`
      are the values the loop has captured so far.  The key set depends only
      on whether the product is the offer product and whether linkage is on:
      31 fixed parameters, plus `offer_id`, plus the four linkage parameters. */
  function BuildParams(body: CheckoutBody, expiry: string, product: Product,
                       customerId: Json, mainOrderId: Json,
                       forwardedFor: Option<string>): (ps: Params)
    ensures |ps| == 31 + (if product.id == "1" then 1 else 0) + (if Truthy(customerId) then 4 else 0)
  {
    OrderBlock(product) + CustomerBlock(body) + UpsellBlock(customerId, mainOrderId)
    + BillingBlock(body) + ShippingBlock(body) + PaymentBlock(body, expiry)
    + TrailerBlock(forwardedFor)
  }

  // ---------------------------------------------------------------------
  // Reading the parameter list back

  /** The value of the first parameter for `key`. */
  function Lookup(ps: Params, key: Field): Option<string>
  {
    if ps == [] then None
    else if ps[0].0 == key then Some(ps[0].1)
    else Lookup(ps[1..], key)
  }

  /** `URLSearchParams.get(name)`: the value of the first parameter whose
      wire name is `name`. */
  function GetParam(ps: Params, name: string): Option<string>
  {
    if ps == [] then None
    else if WireName(ps[0].0) == name then Some(ps[0].1)
    else GetParam(ps[1..], name)
  }

  /** Looking a parameter up by its wire name, as the gateway reads the form,
      finds what `Lookup` finds. */
  lemma {:induction false} GetParamAgrees(ps: Params, key: Field)
    ensures GetParam(ps, WireName(key)) == Lookup(ps, key)
  {
    if ps != [] && ps[0].0 != key {
      if WireName(ps[0].0) == WireName(key) {
        WireNameInjective(ps[0].0, key);
      }
      GetParamAgrees(ps[1..], key);
    }
  }

  predicate HasKey(ps: Params, key: Field)
  {
    Lookup(ps, key).Some?
  }

  /** No parameter name is appended twice. */
  predicate DistinctKeys(ps: Params)
  {
    forall i, j :: 0 <= i < j < |ps| ==> ps[i].0 != ps[j].0
  }

  /** No wire name is appended twice. */
  predicate DistinctNames(ps: Params)
  {
    forall i, j :: 0 <= i < j < |ps| ==> WireName(ps[i].0) != WireName(ps[j].0)
  }

  lemma DistinctKeysNames(ps: Params)
    requires DistinctKeys(ps)
    ensures DistinctNames(ps)
  {
    forall i, j | 0 <= i < j < |ps| ensures WireName(ps[i].0) != WireName(ps[j].0) {
      if WireName(ps[i].0) == WireName(ps[j].0) {
        WireNameInjective(ps[i].0, ps[j].0);
      }
    }
  }

  /** With distinct keys, the parameter at any position is what a lookup of
      its name returns. */
  lemma {:induction false} LookupAt(ps: Params, i: nat)
    requires DistinctKeys(ps)
    requires i < |ps|
    ensures Lookup(ps, ps[i].0) == Some(ps[i].1)
  {
    if i > 0 {
      assert ps[0].0 != ps[i].0;
      assert ps[1..][i - 1] == ps[i];
      LookupAt(ps[1..], i - 1);
    }
  }

  /** A name that no parameter carries is absent. */
  lemma {:induction false} LookupMissing(ps: Params, key: Field)
    requires forall i :: 0 <= i < |ps| ==> ps[i].0 != key
    ensures Lookup(ps, key) == None
  {
    if ps != [] {
      LookupMissing(ps[1..], key);
    }
  }

  /** Every name of `ps` belongs to a block in the window [lo, hi). */
  predicate SectionsWithin(ps: Params, lo: nat, hi: nat)
  {
    forall i :: 0 <= i < |ps| ==> lo <= Section(ps[i].0) < hi
  }

  /** Two blocks with distinct names, the second from later blocks than
      the first, stay distinct when joined. */
  lemma DistinctAppend(a: Params, b: Params, lo: nat, mid: nat, hi: nat)
    requires lo <= mid <= hi
    requires DistinctKeys(a) && SectionsWithin(a, lo, mid)
    requires DistinctKeys(b) && SectionsWithin(b, mid, hi)
    ensures DistinctKeys(a + b) && SectionsWithin(a + b, lo, hi)
  {
  }

  // Each block's names are distinct and lie in the block's own window.
  lemma OrderBlockSectioned(product: Product)
    ensures DistinctKeys(OrderBlock(product)) && SectionsWithin(OrderBlock(product), 0, 1)
  {
  }

  lemma CustomerBlockSectioned(body: CheckoutBody)
    ensures DistinctKeys(CustomerBlock(body)) && SectionsWithin(CustomerBlock(body), 1, 2)
  {
  }

  lemma UpsellBlockSectioned(customerId: Json, mainOrderId: Json)
    ensures DistinctKeys(UpsellBlock(customerId, mainOrderId)) && SectionsWithin(UpsellBlock(customerId, mainOrderId), 2, 3)
  {
  }

  lemma BillingBlockSectioned(body: CheckoutBody)
    ensures DistinctKeys(BillingBlock(body)) && SectionsWithin(BillingBlock(body), 3, 4)
  {
  }

  lemma ShippingBlockSectioned(body: CheckoutBody)
    ensures DistinctKeys(ShippingBlock(body)) && SectionsWithin(ShippingBlock(body), 4, 5)
  {
  }

  lemma PaymentBlockSectioned(body: CheckoutBody, expiry: string)
    ensures DistinctKeys(PaymentBlock(body, expiry)) && SectionsWithin(PaymentBlock(body, expiry), 5, 6)
  {
  }

  lemma TrailerBlockSectioned(forwardedFor: Option<string>)
    ensures DistinctKeys(TrailerBlock(forwardedFor)) && SectionsWithin(TrailerBlock(forwardedFor), 6, 7)
  {
  }

  /** Every name the builder appends, it appends once, as a parameter and
      as the text sent on the wire. */
  lemma BuildParamsDistinct(body: CheckoutBody, expiry: string, product: Product,
                            customerId: Json, mainOrderId: Json, forwardedFor: Option<string>)
    ensures DistinctKeys(BuildParams(body, expiry, product, customerId, mainOrderId, forwardedFor))
    ensures DistinctNames(BuildParams(body, expiry, product, customerId, mainOrderId, forwardedFor))
  {
    var b0 := OrderBlock(product);
    var b1 := CustomerBlock(body);
    var b2 := UpsellBlock(customerId, mainOrderId);
    var b3 := BillingBlock(body);
    var b4 := ShippingBlock(body);
    var b5 := PaymentBlock(body, expiry);
    var b6 := TrailerBlock(forwardedFor);
    OrderBlockSectioned(product);
    CustomerBlockSectioned(body);
    UpsellBlockSectioned(customerId, mainOrderId);
    BillingBlockSectioned(body);
    ShippingBlockSectioned(body);
    PaymentBlockSectioned(body, expiry);
    TrailerBlockSectioned(forwardedFor);
    DistinctAppend(b0, b1, 0, 1, 2);
    DistinctAppend(b0 + b1, b2, 0, 2, 3);
    DistinctAppend(b0 + b1 + b2, b3, 0, 3, 4);
    DistinctAppend(b0 + b1 + b2 + b3, b4, 0, 4, 5);
    DistinctAppend(b0 + b1 + b2 + b3 + b4, b5, 0, 5, 6);
    DistinctAppend(b0 + b1 + b2 + b3 + b4 + b5, b6, 0, 6, 7);
    DistinctKeysNames(b0 + b1 + b2 + b3 + b4 + b5 + b6);
  }

  // ---------------------------------------------------------------------
  // The mapping rules

  /** Billing model 1 for product '4', model 3 for everything else. */
  lemma BillingModelRule(body: CheckoutBody, expiry: string, product: Product,
                         customerId: Json, mainOrderId: Json, forwardedFor: Option<string>)
    ensures Lookup(BuildParams(body, expiry, product, customerId, mainOrderId, forwardedFor), Order(BillingModelId))
            == Some(if product.id == "4" then "1" else "3")
  {
    OrderBlockSectioned(product);
    LookupAt(OrderBlock(product), 4);
    OrderLookup(body, expiry, product, customerId, mainOrderId, forwardedFor, Order(BillingModelId));
  }

  /** `offer_id=1` is present exactly when the product id is '1'. */
  lemma OfferRule(body: CheckoutBody, expiry: string, product: Product,
                  customerId: Json, mainOrderId: Json, forwardedFor: Option<string>)
    ensures Lookup(BuildParams(body, expiry, product, customerId, mainOrderId, forwardedFor), Order(OfferId))
            == if product.id == "1" then Some("1") else None
  {
    if product.id == "1" {
      OrderBlockSectioned(product);
      LookupAt(OrderBlock(product), 5);
      OrderLookup(body, expiry, product, customerId, mainOrderId, forwardedFor, Order(OfferId));
    } else {
      LookupMissing(OrderBlock(product), Order(OfferId));
      OrderAbsent(body, expiry, product, customerId, mainOrderId, forwardedFor, Order(OfferId));
    }
  }

  // ---------------------------------------------------------------------
  // Lookup through the concatenated blocks, one step at a time

  /** A name already present in `a` is found there, whatever follows. */
  lemma {:induction false} LookupKeep(a: Params, b: Params, key: Field)
    requires HasKey(a, key)
    ensures Lookup(a + b, key) == Lookup(a, key)
  {
    if a[0].0 != key {
      assert (a + b)[1..] == a[1..] + b;
      LookupKeep(a[1..], b, key);
    }
  }

  /** A name absent from `a` is looked up in `b`. */
  lemma {:induction false} LookupSkip(a: Params, b: Params, key: Field)
    requires !HasKey(a, key)
    ensures Lookup(a + b, key) == Lookup(b, key)
  {
    if a == [] {
      assert a + b == b;
    } else {
      assert (a + b)[1..] == a[1..] + b;
      LookupSkip(a[1..], b, key);
    }
  }

  /** Position `k` of a block whose names come from a later block than everything before it. */
  lemma LookupBySection(pre: Params, blk: Params, k: nat, lo: nat)
    requires SectionsWithin(pre, 0, lo)
    requires DistinctKeys(blk) && k < |blk| && lo <= Section(blk[k].0)
    ensures Lookup(pre + blk, blk[k].0) == Some(blk[k].1)
  {
    LookupMissing(pre, blk[k].0);
    LookupSkip(pre, blk, blk[k].0);
    LookupAt(blk, k);
  }

  /** The block windows of every prefix of the block sequence. */
  lemma PrefixSections(body: CheckoutBody, expiry: string, product: Product,
                    customerId: Json, mainOrderId: Json)
    ensures SectionsWithin(OrderBlock(product) + CustomerBlock(body), 0, 2)
    ensures SectionsWithin(OrderBlock(product) + CustomerBlock(body) + UpsellBlock(customerId, mainOrderId), 0, 3)
    ensures SectionsWithin(OrderBlock(product) + CustomerBlock(body) + UpsellBlock(customerId, mainOrderId)
                        + BillingBlock(body), 0, 4)
    ensures SectionsWithin(OrderBlock(product) + CustomerBlock(body) + UpsellBlock(customerId, mainOrderId)
                        + BillingBlock(body) + ShippingBlock(body), 0, 5)
    ensures SectionsWithin(OrderBlock(product) + CustomerBlock(body) + UpsellBlock(customerId, mainOrderId)
                        + BillingBlock(body) + ShippingBlock(body) + PaymentBlock(body, expiry), 0, 6)
  {
    var b0 := OrderBlock(product);
    var b1 := CustomerBlock(body);
    var b2 := UpsellBlock(customerId, mainOrderId);
    var b3 := BillingBlock(body);
    var b4 := ShippingBlock(body);
    var b5 := PaymentBlock(body, expiry);
    OrderBlockSectioned(product);
    CustomerBlockSectioned(body);
    UpsellBlockSectioned(customerId, mainOrderId);
    BillingBlockSectioned(body);
    ShippingBlockSectioned(body);
    PaymentBlockSectioned(body, expiry);
    DistinctAppend(b0, b1, 0, 1, 2);
    DistinctAppend(b0 + b1, b2, 0, 2, 3);
    DistinctAppend(b0 + b1 + b2, b3, 0, 3, 4);
    DistinctAppend(b0 + b1 + b2 + b3, b4, 0, 4, 5);
    DistinctAppend(b0 + b1 + b2 + b3 + b4, b5, 0, 5, 6);
  }

  /** A name the order block carries is found there, whatever follows. */
  lemma OrderLookup(body: CheckoutBody, expiry: string, product: Product,
                    customerId: Json, mainOrderId: Json, forwardedFor: Option<string>, key: Field)
    requires HasKey(OrderBlock(product), key)
    ensures Lookup(BuildParams(body, expiry, product, customerId, mainOrderId, forwardedFor), key)
            == Lookup(OrderBlock(product), key)
  {
    var o := OrderBlock(product);
    var c := CustomerBlock(body);
    var u := UpsellBlock(customerId, mainOrderId);
    LookupKeep(o, c, key);
    LookupKeep(o + c, u, key);
    LookupKeep(o + c + u, BillingBlock(body), key);
    LookupKeep(o + c + u + BillingBlock(body), ShippingBlock(body), key);
    LookupKeep(o + c + u + BillingBlock(body) + ShippingBlock(body), PaymentBlock(body, expiry), key);
    LookupKeep(o + c + u + BillingBlock(body) + ShippingBlock(body) + PaymentBlock(body, expiry),
               TrailerBlock(forwardedFor), key);
  }

  /** An order-block name the order block leaves out is absent altogether. */
  lemma OrderAbsent(body: CheckoutBody, expiry: string, product: Product,
                    customerId: Json, mainOrderId: Json, forwardedFor: Option<string>, key: Field)
    requires key.Order? && !HasKey(OrderBlock(product), key)
    ensures !HasKey(BuildParams(body, expiry, product, customerId, mainOrderId, forwardedFor), key)
  {
    var o := OrderBlock(product);
    var c := CustomerBlock(body);
    var u := UpsellBlock(customerId, mainOrderId);
    CustomerBlockSectioned(body);
    UpsellBlockSectioned(customerId, mainOrderId);
    LookupMissing(c, key);
    LookupMissing(u, key);
    LookupSkip(o, c, key);
    LookupSkip(o + c, u, key);
    AbsentFromTail(o + c + u, body, expiry, forwardedFor, key);
  }

  /** Looking up the `k`-th customer parameter in the whole request. */
  lemma CustomerLookup(body: CheckoutBody, expiry: string, product: Product,
                       customerId: Json, mainOrderId: Json, forwardedFor: Option<string>, k: nat)
    requires k < 4
    ensures Lookup(BuildParams(body, expiry, product, customerId, mainOrderId, forwardedFor), CustomerBlock(body)[k].0)
            == Some(CustomerBlock(body)[k].1)
  {
    var o := OrderBlock(product);
    var c := CustomerBlock(body);
    var u := UpsellBlock(customerId, mainOrderId);
    var key := c[k].0;
    OrderBlockSectioned(product);
    CustomerBlockSectioned(body);
    LookupBySection(o, c, k, 1);
    LookupKeep(o + c, u, key);
    LookupKeep(o + c + u, BillingBlock(body), key);
    LookupKeep(o + c + u + BillingBlock(body), ShippingBlock(body), key);
    LookupKeep(o + c + u + BillingBlock(body) + ShippingBlock(body), PaymentBlock(body, expiry), key);
    LookupKeep(o + c + u + BillingBlock(body) + ShippingBlock(body) + PaymentBlock(body, expiry),
               TrailerBlock(forwardedFor), key);
  }

  /** Looking up the `k`-th billing parameter in the whole request. */
  lemma BillingLookup(body: CheckoutBody, expiry: string, product: Product,
                      customerId: Json, mainOrderId: Json, forwardedFor: Option<string>, k: nat)
    requires k < 7
    ensures Lookup(BuildParams(body, expiry, product, customerId, mainOrderId, forwardedFor), BillingBlock(body)[k].0)
            == Some(BillingBlock(body)[k].1)
  {
    var pre := OrderBlock(product) + CustomerBlock(body) + UpsellBlock(customerId, mainOrderId);
    var key := BillingBlock(body)[k].0;
    PrefixSections(body, expiry, product, customerId, mainOrderId);
    BillingBlockSectioned(body);
    LookupBySection(pre, BillingBlock(body), k, 3);
    LookupKeep(pre + BillingBlock(body), ShippingBlock(body), key);
    LookupKeep(pre + BillingBlock(body) + ShippingBlock(body), PaymentBlock(body, expiry), key);
    LookupKeep(pre + BillingBlock(body) + ShippingBlock(body) + PaymentBlock(body, expiry),
               TrailerBlock(forwardedFor), key);
  }

  /** Looking up the `k`-th shipping parameter in the whole request. */
  lemma ShippingLookup(body: CheckoutBody, expiry: string, product: Product,
                       customerId: Json, mainOrderId: Json, forwardedFor: Option<string>, k: nat)
    requires k < 7
    ensures Lookup(BuildParams(body, expiry, product, customerId, mainOrderId, forwardedFor), ShippingBlock(body)[k].0)
            == Some(ShippingBlock(body)[k].1)
  {
    var pre := OrderBlock(product) + CustomerBlock(body) + UpsellBlock(customerId, mainOrderId) + BillingBlock(body);
    var key := ShippingBlock(body)[k].0;
    PrefixSections(body, expiry, product, customerId, mainOrderId);
    ShippingBlockSectioned(body);
    LookupBySection(pre, ShippingBlock(body), k, 4);
    LookupKeep(pre + ShippingBlock(body), PaymentBlock(body, expiry), key);
    LookupKeep(pre + ShippingBlock(body) + PaymentBlock(body, expiry), TrailerBlock(forwardedFor), key);
  }

  /** Looking up the `k`-th payment parameter in the whole request. */
  lemma PaymentLookup(body: CheckoutBody, expiry: string, product: Product,
                      customerId: Json, mainOrderId: Json, forwardedFor: Option<string>, k: nat)
    requires k < 4
    ensures Lookup(BuildParams(body, expiry, product, customerId, mainOrderId, forwardedFor), PaymentBlock(body, expiry)[k].0)
            == Some(PaymentBlock(body, expiry)[k].1)
  {
    var pre := OrderBlock(product) + CustomerBlock(body) + UpsellBlock(customerId, mainOrderId)
      + BillingBlock(body) + ShippingBlock(body);
    PrefixSections(body, expiry, product, customerId, mainOrderId);
    PaymentBlockSectioned(body, expiry);
    LookupBySection(pre, PaymentBlock(body, expiry), k, 5);
    LookupKeep(pre + PaymentBlock(body, expiry), TrailerBlock(forwardedFor), PaymentBlock(body, expiry)[k].0);
  }

  /** Looking up the `k`-th trailing parameter in the whole request. */
  lemma TrailerLookup(body: CheckoutBody, expiry: string, product: Product,
                      customerId: Json, mainOrderId: Json, forwardedFor: Option<string>, k: nat)
    requires k < 4
    ensures Lookup(BuildParams(body, expiry, product, customerId, mainOrderId, forwardedFor), TrailerBlock(forwardedFor)[k].0)
            == Some(TrailerBlock(forwardedFor)[k].1)
  {
    var pre := OrderBlock(product) + CustomerBlock(body) + UpsellBlock(customerId, mainOrderId)
      + BillingBlock(body) + ShippingBlock(body) + PaymentBlock(body, expiry);
    PrefixSections(body, expiry, product, customerId, mainOrderId);
    TrailerBlockSectioned(forwardedFor);
    LookupBySection(pre, TrailerBlock(forwardedFor), k, 6);
  }

  /** Looking up the `k`-th linkage parameter when linkage is on. */
  lemma UpsellLookup(body: CheckoutBody, expiry: string, product: Product,
                     customerId: Json, mainOrderId: Json, forwardedFor: Option<string>, k: nat)
    requires Truthy(customerId) && k < 4
    ensures Lookup(BuildParams(body, expiry, product, customerId, mainOrderId, forwardedFor),
                   UpsellBlock(customerId, mainOrderId)[k].0)
            == Some(UpsellBlock(customerId, mainOrderId)[k].1)
  {
    var pre := OrderBlock(product) + CustomerBlock(body);
    var u := UpsellBlock(customerId, mainOrderId);
    var key := u[k].0;
    PrefixSections(body, expiry, product, customerId, mainOrderId);
    UpsellBlockSectioned(customerId, mainOrderId);
    LookupBySection(pre, u, k, 2);
    LookupKeep(pre + u, BillingBlock(body), key);
    LookupKeep(pre + u + BillingBlock(body), ShippingBlock(body), key);
    LookupKeep(pre + u + BillingBlock(body) + ShippingBlock(body), PaymentBlock(body, expiry), key);
    LookupKeep(pre + u + BillingBlock(body) + ShippingBlock(body) + PaymentBlock(body, expiry),
               TrailerBlock(forwardedFor), key);
  }

  /** A linkage name is absent when linkage is off. */
  lemma UpsellAbsent(body: CheckoutBody, expiry: string, product: Product,
                     customerId: Json, mainOrderId: Json, forwardedFor: Option<string>, key: Field)
    requires !Truthy(customerId)
    requires key.Link?
    ensures !HasKey(BuildParams(body, expiry, product, customerId, mainOrderId, forwardedFor), key)
  {
    var oc := OrderBlock(product) + CustomerBlock(body);
    var u := UpsellBlock(customerId, mainOrderId);
    PrefixSections(body, expiry, product, customerId, mainOrderId);
    LookupMissing(oc, key);
    LookupMissing(u, key);
    LookupSkip(oc, u, key);
    AbsentFromTail(oc + u, body, expiry, forwardedFor, key);
  }

  /** A name outside the billing, shipping, payment and trailing blocks that
      is absent from the head stays absent. */
  lemma AbsentFromTail(head: Params, body: CheckoutBody, expiry: string,
                       forwardedFor: Option<string>, key: Field)
    requires !HasKey(head, key)
    requires Section(key) < 3
    ensures !HasKey(head + BillingBlock(body) + ShippingBlock(body) + PaymentBlock(body, expiry)
                    + TrailerBlock(forwardedFor), key)
  {
    BillingBlockSectioned(body);
    ShippingBlockSectioned(body);
    PaymentBlockSectioned(body, expiry);
    TrailerBlockSectioned(forwardedFor);
    LookupMissing(BillingBlock(body), key);
    LookupMissing(ShippingBlock(body), key);
    LookupMissing(PaymentBlock(body, expiry), key);
    LookupMissing(TrailerBlock(forwardedFor), key);
    LookupSkip(head, BillingBlock(body), key);
    LookupSkip(head + BillingBlock(body), ShippingBlock(body), key);
    LookupSkip(head + BillingBlock(body) + ShippingBlock(body), PaymentBlock(body, expiry), key);
    LookupSkip(head + BillingBlock(body) + ShippingBlock(body) + PaymentBlock(body, expiry),
               TrailerBlock(forwardedFor), key);
  }

  // ---------------------------------------------------------------------
  // The mapping rules, stated on the whole request

  /** Every call is a `NewOrder` for campaign 1 with shipping method 2, for
      the product being sent. */
  lemma OrderRule(body: CheckoutBody, expiry: string, product: Product,
                  customerId: Json, mainOrderId: Json, forwardedFor: Option<string>)
    ensures var ps := BuildParams(body, expiry, product, customerId, mainOrderId, forwardedFor);
      && Lookup(ps, Order(Method)) == Some("NewOrder")
      && Lookup(ps, Order(CampaignId)) == Some("1")
      && Lookup(ps, Order(ShippingId)) == Some("2")
      && Lookup(ps, Order(ProductId)) == Some(product.id)
  {
    OrderBlockSectioned(product);
    LookupAt(OrderBlock(product), 0);
    LookupAt(OrderBlock(product), 1);
    LookupAt(OrderBlock(product), 2);
    LookupAt(OrderBlock(product), 3);
    OrderLookup(body, expiry, product, customerId, mainOrderId, forwardedFor, Order(Method));
    OrderLookup(body, expiry, product, customerId, mainOrderId, forwardedFor, Order(CampaignId));
    OrderLookup(body, expiry, product, customerId, mainOrderId, forwardedFor, Order(ShippingId));
    OrderLookup(body, expiry, product, customerId, mainOrderId, forwardedFor, Order(ProductId));
  }

  /** The customer block carries the body's e-mail, names and phone as
      `String(v)` gives them (`"undefined"` for an absent field). */
  lemma CustomerRule(body: CheckoutBody, expiry: string, product: Product,
                     customerId: Json, mainOrderId: Json, forwardedFor: Option<string>)
    ensures var ps := BuildParams(body, expiry, product, customerId, mainOrderId, forwardedFor);
      && Lookup(ps, Customer(Email)) == Some(Text(body.email))
      && Lookup(ps, Customer(FirstName)) == Some(Text(body.firstName))
      && Lookup(ps, Customer(LastName)) == Some(Text(body.lastName))
      && Lookup(ps, Customer(Phone)) == Some(Text(body.phone))
  {
    CustomerLookup(body, expiry, product, customerId, mainOrderId, forwardedFor, 0);
    CustomerLookup(body, expiry, product, customerId, mainOrderId, forwardedFor, 1);
    CustomerLookup(body, expiry, product, customerId, mainOrderId, forwardedFor, 2);
    CustomerLookup(body, expiry, product, customerId, mainOrderId, forwardedFor, 3);
  }

  /** The linkage parameters are all present, with the captured values,
      exactly when the captured customer id is truthy; otherwise none is. */
  lemma UpsellRule(body: CheckoutBody, expiry: string, product: Product,
                   customerId: Json, mainOrderId: Json, forwardedFor: Option<string>)
    ensures var ps := BuildParams(body, expiry, product, customerId, mainOrderId, forwardedFor);
      if Truthy(customerId) then
        && Lookup(ps, Link(CustomerId)) == Some(ToJsString(customerId))
        && Lookup(ps, Link(ForceCustomerId)) == Some("1")
        && Lookup(ps, Link(IsUpsell)) == Some("1")
        && Lookup(ps, Link(ParentOrderId)) == Some(ToJsString(mainOrderId))
      else
        && !HasKey(ps, Link(CustomerId)) && !HasKey(ps, Link(ForceCustomerId))
        && !HasKey(ps, Link(IsUpsell)) && !HasKey(ps, Link(ParentOrderId))
  {
    if Truthy(customerId) {
      UpsellLookup(body, expiry, product, customerId, mainOrderId, forwardedFor, 0);
      UpsellLookup(body, expiry, product, customerId, mainOrderId, forwardedFor, 1);
      UpsellLookup(body, expiry, product, customerId, mainOrderId, forwardedFor, 2);
      UpsellLookup(body, expiry, product, customerId, mainOrderId, forwardedFor, 3);
    } else {
      UpsellAbsent(body, expiry, product, customerId, mainOrderId, forwardedFor, Link(CustomerId));
      UpsellAbsent(body, expiry, product, customerId, mainOrderId, forwardedFor, Link(ForceCustomerId));
      UpsellAbsent(body, expiry, product, customerId, mainOrderId, forwardedFor, Link(IsUpsell));
      UpsellAbsent(body, expiry, product, customerId, mainOrderId, forwardedFor, Link(ParentOrderId));
    }
  }

  /** The position of an address key inside either address block. */
  function AddressIndex(k: AddressKey): (i: nat)
    ensures i < 7
    ensures forall body :: BillingBlock(body)[i] == (Billing(k), AddressValue(body, k))
    ensures forall body :: ShippingBlock(body)[i] == (Shipping(k), AddressValue(body, k))
  {
    match k
    case AddrFirstName => 0
    case AddrLastName => 1
    case AddrLine1 => 2
    case AddrCity => 3
    case AddrState => 4
    case AddrZip => 5
    case AddrCountry => 6
  }

  /** Billing and shipping carry every address key with the same value, all
      taken from the billing fields. */
  lemma AddressBlocksAgree(body: CheckoutBody, expiry: string, product: Product,
                           customerId: Json, mainOrderId: Json, forwardedFor: Option<string>)
    ensures var ps := BuildParams(body, expiry, product, customerId, mainOrderId, forwardedFor);
      forall k: AddressKey :: Lookup(ps, Billing(k)) == Lookup(ps, Shipping(k)) == Some(AddressValue(body, k))
  {
    forall k: AddressKey
      ensures var ps := BuildParams(body, expiry, product, customerId, mainOrderId, forwardedFor);
        Lookup(ps, Billing(k)) == Lookup(ps, Shipping(k)) == Some(AddressValue(body, k))
    {
      AddressKeyAgrees(body, expiry, product, customerId, mainOrderId, forwardedFor, k);
    }
  }

  lemma AddressKeyAgrees(body: CheckoutBody, expiry: string, product: Product,
                         customerId: Json, mainOrderId: Json, forwardedFor: Option<string>, k: AddressKey)
    ensures var ps := BuildParams(body, expiry, product, customerId, mainOrderId, forwardedFor);
      Lookup(ps, Billing(k)) == Lookup(ps, Shipping(k)) == Some(AddressValue(body, k))
  {
    BillingLookup(body, expiry, product, customerId, mainOrderId, forwardedFor, AddressIndex(k));
    ShippingLookup(body, expiry, product, customerId, mainOrderId, forwardedFor, AddressIndex(k));
  }

  /** The payment block carries the card number as typed, the evaluated
      expiry, the CVV and the guessed network; the client address falls back
      to the loopback address; payment is always by credit card, the
      transaction always a sale, and test mode always on. */
  lemma PaymentRule(body: CheckoutBody, expiry: string, product: Product,
                    customerId: Json, mainOrderId: Json, forwardedFor: Option<string>)
    ensures var ps := BuildParams(body, expiry, product, customerId, mainOrderId, forwardedFor);
      && Lookup(ps, Card(CreditCardNumber)) == Some(Text(body.cardNumber))
      && Lookup(ps, Card(ExpirationDate)) == Some(expiry)
      && Lookup(ps, Card(Cvv)) == Some(Text(body.cardCvv))
      && Lookup(ps, Card(CreditCardType)) == Some(DetectCardType(body.cardNumber))
      && Lookup(ps, Trailer(IpAddress)) == Some(IpOrDefault(forwardedFor))
      && Lookup(ps, Trailer(PaymentType)) == Some("CREDITCARD")
      && Lookup(ps, Trailer(TranType)) == Some("Sale")
      && Lookup(ps, Trailer(TestMode)) == Some("1")
  {
    PaymentLookup(body, expiry, product, customerId, mainOrderId, forwardedFor, 0);
    PaymentLookup(body, expiry, product, customerId, mainOrderId, forwardedFor, 1);
    PaymentLookup(body, expiry, product, customerId, mainOrderId, forwardedFor, 2);
    PaymentLookup(body, expiry, product, customerId, mainOrderId, forwardedFor, 3);
    TrailerLookup(body, expiry, product, customerId, mainOrderId, forwardedFor, 0);
    TrailerLookup(body, expiry, product, customerId, mainOrderId, forwardedFor, 1);
    TrailerLookup(body, expiry, product, customerId, mainOrderId, forwardedFor, 2);
    TrailerLookup(body, expiry, product, customerId, mainOrderId, forwardedFor, 3);
  }
}

=== FILE: js.dfy ===
/**
 The slice of JavaScript value semantics that both route handlers lean on:
 parsed JSON values, truthiness, the `||` fallback operator, property reads
 that yield `undefined` for a missing key, `String(v)` as used when a value is
 appended to form parameters, `String.prototype.padStart`, and ASCII
 lower-casing.
 */
module Js {

  datatype Option<+T> = None | Some(value: T)

  /** A value read out of parsed JSON (or a form-decoded payload).
      Integral numbers are kept as `Num`; a non-integral number is kept as its
      decimal text in `Frac`, since the handlers only ever echo it.  Objects and
      arrays are opaque: `Obj` keeps the text `String(v)` would produce.  An
      object whose string conversion throws is not represented. */
  datatype Json =
    | Undefined
    | Null
    | Bool(b: bool)
    | Num(n: int)
    | Frac(text: string)
    | Str(s: string)
    | Obj(text: string)

  /** JavaScript truthiness: `undefined`, `null`, `false`, `0` and `""` are falsy.
      A `Frac` is never zero, and objects and arrays are always truthy. */
  predicate Truthy(v: Json)
  {
    match v
    case Undefined => false
    case Null => false
    case Bool(b) => b
    case Num(n) => n != 0
    case Frac(_) => true
    case Str(s) => s != ""
    case Obj(_) => true
  }

  /** The falsy values are exactly `undefined`, `null`, `false`, `0` and
      the empty string. */
  lemma FalsyValues(v: Json)
    ensures !Truthy(v) <==> v in {Undefined, Null, Bool(false), Num(0), Str("")}
  {
  }

  /** `a || b` */
  function Or(a: Json, b: Json): Json
  {
    if Truthy(a) then a else b
  }

  /** `obj[key]`: a key the object does not hold reads as `undefined`. */
  function Get(obj: map<string, Json>, key: string): Json
  {
    if key in obj then obj[key] else Undefined
  }

  /** An optional string field of a request body as a JS value. */
  function FromOption(o: Option<string>): Json
  {
    match o
    case None => Undefined
    case Some(s) => Str(s)
  }

  function DigitChar(d: nat): char
    requires d < 10
  {
    "0123456789"[d]
  }

  function NatDecimal(n: nat): string
    decreases n
  {
    if n < 10 then [DigitChar(n)] else NatDecimal(n / 10) + [DigitChar(n % 10)]
  }

  /** `String(n)` for an integral number. */
  function Decimal(n: int): string
  {
    if n < 0 then "-" + NatDecimal(-n) else NatDecimal(n)
  }

  /** The value of a string of decimal digits. */
  function DigitsValue(s: string): int
  {
    if s == [] then 0 else 10 * DigitsValue(s[..|s| - 1]) + (s[|s| - 1] as int - '0' as int)
  }

  /** Reading a decimal numeral, with an optional leading minus sign. */
  function ParseDecimal(s: string): int
  {
    if |s| > 0 && s[0] == '-' then -DigitsValue(s[1..]) else DigitsValue(s)
  }

  lemma DigitCharValue(d: nat)
    requires d < 10
    ensures '0' <= DigitChar(d) <= '9'
    ensures DigitChar(d) as int - '0' as int == d
  {
  }

  /** The numeral of a natural number is a non-empty run of digits that
      reads back as the number. */
  lemma {:induction false} NatDecimalValue(n: nat)
    ensures |NatDecimal(n)| > 0
    ensures forall i :: 0 <= i < |NatDecimal(n)| ==> '0' <= NatDecimal(n)[i] <= '9'
    ensures DigitsValue(NatDecimal(n)) == n
  {
    DigitCharValue(n % 10);
    if n >= 10 {
      NatDecimalValue(n / 10);
      var s := NatDecimal(n / 10) + [DigitChar(n % 10)];
      assert s[..|s| - 1] == NatDecimal(n / 10);
    }
  }

  /** `String(n)` of an integral number reads back as `n`. */
  lemma DecimalRoundTrip(n: int)
    ensures ParseDecimal(ToJsString(Num(n))) == n
  {
    var s := ToJsString(Num(n));
    if n < 0 {
      var digits := NatDecimal(-n);
      NatDecimalValue(-n);
      assert s == "-" + digits;
      assert s[0] == '-' && s[1..] == digits;
    } else {
      var digits := NatDecimal(n);
      NatDecimalValue(n);
      assert s == digits;
      assert s[0] != '-';
    }
  }

  /** `String(v)`, which is what `URLSearchParams.append` stores for a value. */
  function ToJsString(v: Json): string
  {
    match v
    case Undefined => "undefined"
    case Null => "null"
    case Bool(b) => if b then "true" else "false"
    case Num(n) => Decimal(n)
    case Frac(t) => t
    case Str(s) => s
    case Obj(t) => t
  }

  /** `s.padStart(width, fill)` for a one-character fill string. */
  function PadStart(s: string, width: nat, fill: char): (r: string)
    ensures |r| == if |s| >= width then |s| else width
    ensures r[|r| - |s|..] == s
    ensures forall i :: 0 <= i < |r| - |s| ==> r[i] == fill
    decreases width - |s|
  {
    if |s| >= width then s else PadStart([fill] + s, width, fill)
  }

  function LowerChar(c: char): char
  {
    if 'A' <= c <= 'Z' then (c as int + 32) as char else c
  }

  /** `s.toLowerCase()` restricted to ASCII letters. */
  function Lower(s: string): string
  {
    if s == [] then [] else [LowerChar(s[0])] + Lower(s[1..])
  }

  lemma {:induction false} LowerLength(s: string)
    ensures |Lower(s)| == |s|
    ensures forall i :: 0 <= i < |s| ==> Lower(s)[i] == LowerChar(s[i])
  {
    if s != [] {
      LowerLength(s[1..]);
    }
  }

  /** Lower-casing twice is lower-casing once. */
  lemma {:induction false} LowerIdempotent(s: string)
    ensures Lower(Lower(s)) == Lower(s)
  {
    if s != [] {
      LowerIdempotent(s[1..]);
      assert Lower(s)[1..] == Lower(s[1..]);
    }
  }

  /** Lower-casing leaves no ASCII capital behind. */
  lemma {:induction false} LowerHasNoCapitals(s: string)
    ensures forall i :: 0 <= i < |Lower(s)| ==> !('A' <= Lower(s)[i] <= 'Z')
  {
    LowerLength(s);
  }

  /** A string with no ASCII capital is its own lower-case form. */
  lemma LowerKeepsLowercase(s: string)
    requires forall i :: 0 <= i < |s| ==> !('A' <= s[i] <= 'Z')
    ensures Lower(s) == s
  {
    LowerLength(s);
  }
}

=== FILE: webhook.dfy ===
/**
 The gateway's webhook endpoint (app/api/webhooks/sticky/route.js): the body
 is read as JSON or, failing that, as form fields; the event type, order id
 and customer id are picked from several historical key spellings; the event
 type is matched case-insensitively against a fixed alias table and one of
 eleven handlers runs.  Handlers only log, so each is modelled as the trace
 of effects it announces.  The signature header is read but never checked.
 */
module Webhook {
  import opened Js

  // ---------------------------------------------------------------------
  // The payload

  /** The request body after `JSON.parse`, or the decoded form fields when
      the body is not JSON. */
  datatype WebhookBody =
    | JsonObject(fields: map<string, Json>)
    | JsonNull
    | JsonScalar
    | NotJson(pairs: seq<(string, string)>)

  /** `Object.fromEntries(new URLSearchParams(body))`: a repeated name keeps
      its last value. */
  function FormDecode(pairs: seq<(string, string)>): map<string, Json>
  {
    if pairs == [] then map[]
    else
      var n := |pairs| - 1;
      FormDecode(pairs[..n])[pairs[n].0 := Str(pairs[n].1)]
  }

  /** `i` is the last pair named `key`. */
  predicate IsLastPair(pairs: seq<(string, string)>, key: string, i: int)
  {
    0 <= i < |pairs| && pairs[i].0 == key && forall j :: i < j < |pairs| ==> pairs[j].0 != key
  }

  /** Form decoding holds exactly the names that occur, each as a string. */
  lemma {:induction false} FormDecodeKeys(pairs: seq<(string, string)>)
    ensures forall key :: key in FormDecode(pairs) <==> exists i :: 0 <= i < |pairs| && pairs[i].0 == key
    ensures forall key :: key in FormDecode(pairs) ==> FormDecode(pairs)[key].Str?
  {
    if pairs != [] {
      var n := |pairs| - 1;
      var init := pairs[..n];
      FormDecodeKeys(init);
      forall key
        ensures key in FormDecode(pairs) <==> exists i :: 0 <= i < |pairs| && pairs[i].0 == key
      {
        if key in FormDecode(init) {
          var i :| 0 <= i < |init| && init[i].0 == key;
          assert pairs[i].0 == key;
        }
        if exists i :: 0 <= i < |pairs| && pairs[i].0 == key {
          var i :| 0 <= i < |pairs| && pairs[i].0 == key;
          if i < n {
            assert init[i].0 == key;
          }
        }
      }
    }
  }

  /** A repeated name keeps the value of its last occurrence. */
  lemma {:induction false} FormDecodeLastWins(pairs: seq<(string, string)>)
    ensures forall i :: 0 <= i < |pairs| && IsLastPair(pairs, pairs[i].0, i) ==>
              pairs[i].0 in FormDecode(pairs) && FormDecode(pairs)[pairs[i].0] == Str(pairs[i].1)
  {
    if pairs != [] {
      var n := |pairs| - 1;
      var init := pairs[..n];
      FormDecodeLastWins(init);
      forall i | 0 <= i < |pairs| && IsLastPair(pairs, pairs[i].0, i)
        ensures pairs[i].0 in FormDecode(pairs) && FormDecode(pairs)[pairs[i].0] == Str(pairs[i].1)
      {
        if i < n {
          assert IsLastPair(init, init[i].0, i);
        }
      }
    }
  }

  /** The object the handlers read, or None when any property read throws
      (the body was the JSON literal `null`).  A JSON number, string, boolean
      or array has none of the keys read, so it reads as an empty object.  A
      form body holds exactly the names that occur in it, each with the
      string of its last occurrence. */
  function Payload(body: WebhookBody): (r: Option<map<string, Json>>)
    ensures r.None? <==> body.JsonNull?
    ensures body.JsonObject? ==> r == Some(body.fields)
    ensures body.JsonScalar? ==> r == Some(map[])
    ensures body.NotJson? ==> forall key :: key in r.value ==> r.value[key].Str?
    ensures body.NotJson? ==>
      forall key :: key in r.value <==> exists i :: 0 <= i < |body.pairs| && body.pairs[i].0 == key
    ensures body.NotJson? ==>
      forall i :: 0 <= i < |body.pairs| && IsLastPair(body.pairs, body.pairs[i].0, i) ==>
        body.pairs[i].0 in r.value && r.value[body.pairs[i].0] == Str(body.pairs[i].1)
  {
    match body
    case JsonObject(fields) => Some(fields)
    case JsonNull => None
    case JsonScalar => Some(map[])
    case NotJson(pairs) =>
      FormDecodeKeys(pairs);
      FormDecodeLastWins(pairs);
      Some(FormDecode(pairs))
  }

  // ---------------------------------------------------------------------
  // Key-fallback extraction

  /** `data.event_type || data.eventType || data.action || data.type || 'unknown'` */
  function EventType(data: map<string, Json>): Json
  {
    Or(Or(Or(Or(Get(data, "event_type"), Get(data, "eventType")), Get(data, "action")), Get(data, "type")),
       Str("unknown"))
  }

  /** `data.order_id || data.orderId || data.id` */
  function OrderIdOf(data: map<string, Json>): Json
  {
    Or(Or(Get(data, "order_id"), Get(data, "orderId")), Get(data, "id"))
  }

  /** `data.customer_id || data.customerId` */
  function CustomerIdOf(data: map<string, Json>): Json
  {
    Or(Get(data, "customer_id"), Get(data, "customerId"))
  }

  /** `keys[i]` is the first key whose value is truthy. */
  predicate IsFirstTruthyKey(data: map<string, Json>, keys: seq<string>, i: int)
  {
    0 <= i < |keys| && Truthy(Get(data, keys[i]))
    && forall j :: 0 <= j < i ==> !Truthy(Get(data, keys[j]))
  }

  /** `r` is the value of the first key that holds a truthy value, when
      there is one. */
  predicate PicksFirstTruthy(data: map<string, Json>, keys: seq<string>, r: Json)
  {
    forall i :: 0 <= i < |keys| && IsFirstTruthyKey(data, keys, i) ==> r == Get(data, keys[i])
  }

  predicate NoneTruthy(data: map<string, Json>, keys: seq<string>)
  {
    forall i :: 0 <= i < |keys| ==> !Truthy(Get(data, keys[i]))
  }

  /** The event type is the first truthy value among `event_type`,
      `eventType`, `action` and `type`, else 'unknown'; the order id the
      first truthy among `order_id`, `orderId` and `id`; the customer id the
      first truthy among `customer_id` and `customerId`.  When no id key is
      truthy the id read is falsy. */
  lemma ExtractionRule(data: map<string, Json>)
    ensures PicksFirstTruthy(data, ["event_type", "eventType", "action", "type"], EventType(data))
    ensures NoneTruthy(data, ["event_type", "eventType", "action", "type"]) ==> EventType(data) == Str("unknown")
    ensures Truthy(EventType(data))
    ensures PicksFirstTruthy(data, ["order_id", "orderId", "id"], OrderIdOf(data))
    ensures NoneTruthy(data, ["order_id", "orderId", "id"]) <==> !Truthy(OrderIdOf(data))
    ensures PicksFirstTruthy(data, ["customer_id", "customerId"], CustomerIdOf(data))
    ensures NoneTruthy(data, ["customer_id", "customerId"]) <==> !Truthy(CustomerIdOf(data))
  {
    var ek := ["event_type", "eventType", "action", "type"];
    var ok := ["order_id", "orderId", "id"];
    var ck := ["customer_id", "customerId"];
    forall i | IsFirstTruthyKey(data, ek, i)
      ensures EventType(data) == Get(data, ek[i])
    {
      if i > 0 { assert !Truthy(Get(data, ek[0])); }
      if i > 1 { assert !Truthy(Get(data, ek[1])); }
      if i > 2 { assert !Truthy(Get(data, ek[2])); }
    }
    forall i | IsFirstTruthyKey(data, ok, i)
      ensures OrderIdOf(data) == Get(data, ok[i])
    {
      if i > 0 { assert !Truthy(Get(data, ok[0])); }
      if i > 1 { assert !Truthy(Get(data, ok[1])); }
    }
    forall i | IsFirstTruthyKey(data, ck, i)
      ensures CustomerIdOf(data) == Get(data, ck[i])
    {
      if i > 0 { assert !Truthy(Get(data, ck[0])); }
    }
    if NoneTruthy(data, ek) {
      assert !Truthy(Get(data, ek[0])) && !Truthy(Get(data, ek[1]));
      assert !Truthy(Get(data, ek[2])) && !Truthy(Get(data, ek[3]));
    }
    if NoneTruthy(data, ok) {
      assert !Truthy(Get(data, ok[0])) && !Truthy(Get(data, ok[1])) && !Truthy(Get(data, ok[2]));
    } else {
      var i :| 0 <= i < |ok| && Truthy(Get(data, ok[i]));
    }
    if NoneTruthy(data, ck) {
      assert !Truthy(Get(data, ck[0])) && !Truthy(Get(data, ck[1]));
    } else {
      var i :| 0 <= i < |ck| && Truthy(Get(data, ck[i]));
    }
  }

  // ---------------------------------------------------------------------
  // Routing

  /** The eleven handlers of the switch. */
  datatype HandlerKind =
    | OrderCreated | OrderSuccess | OrderDeclined
    | SubscriptionCreated | SubscriptionCancelled | SubscriptionRenewed
    | RefundIssued | Chargeback | Void | Cancel
    | UnknownEvent

  /** The `case` labels of the switch, each with the handler it reaches. */
  const AliasTable: seq<(string, HandlerKind)> := [
    ("order_created", OrderCreated), ("order.created", OrderCreated), ("created", OrderCreated),
    ("order_success", OrderSuccess), ("order.success", OrderSuccess), ("approved", OrderSuccess),
    ("success", OrderSuccess),
    ("order_declined", OrderDeclined), ("order.declined", OrderDeclined), ("declined", OrderDeclined),
    ("subscription_created", SubscriptionCreated), ("subscription.created", SubscriptionCreated),
    ("subscription_cancelled", SubscriptionCancelled), ("subscription.cancelled", SubscriptionCancelled),
    ("cancelled", SubscriptionCancelled),
    ("subscription_renewed", SubscriptionRenewed), ("subscription.renewed", SubscriptionRenewed),
    ("renewed", SubscriptionRenewed),
    ("refund_issued", RefundIssued), ("refund.issued", RefundIssued), ("refund", RefundIssued),
    ("chargeback", Chargeback), ("chargeback.created", Chargeback),
    ("void", Void),
    ("cancel", Cancel)
  ]

  /** The labels of `table` that reach handler `k`. */
  function AliasesIn(table: seq<(string, HandlerKind)>, k: HandlerKind): set<string>
  {
    set i | 0 <= i < |table| && table[i].1 == k :: table[i].0
  }

  /** `e` is one of the switch's case labels. */
  predicate IsLabel(e: string)
  {
    exists i :: 0 <= i < |AliasTable| && AliasTable[i].0 == e
  }

  /** The aliases that reach handler `k`. */
  function Aliases(k: HandlerKind): set<string>
  {
    AliasesIn(AliasTable, k)
  }

  /** A `switch` over string labels: the handler of the first label equal
      to `e`, or the `default` branch when none is. */
  function FindHandler(table: seq<(string, HandlerKind)>, e: string): HandlerKind
  {
    if table == [] then UnknownEvent
    else if table[0].0 == e then table[0].1
    else FindHandler(table[1..], e)
  }

  /** `switch (eventType.toLowerCase())` over the case labels of
      `AliasTable`: the catch-all exactly when the lower-cased type is no
      label, and otherwise the handler listed beside it. */
  function Route(eventType: string): (k: HandlerKind)
    ensures k == UnknownEvent <==> !IsLabel(Lower(eventType))
    ensures k != UnknownEvent ==> exists i :: 0 <= i < |AliasTable| && AliasTable[i] == (Lower(eventType), k)
  {
    AliasTableWellFormed();
    FindHandlerSpec(AliasTable, Lower(eventType));
    FindHandler(AliasTable, Lower(eventType))
  }

  predicate LabelsDistinct(table: seq<(string, HandlerKind)>)
  {
    forall i, j :: 0 <= i < j < |table| ==> table[i].0 != table[j].0
  }

  predicate NoDefaultLabel(table: seq<(string, HandlerKind)>)
  {
    forall i :: 0 <= i < |table| ==> table[i].1 != UnknownEvent
  }

  /** The default branch is taken exactly when no label matches; with
      distinct labels, a matching label's handler is the one chosen. */
  lemma {:induction false} FindHandlerSpec(table: seq<(string, HandlerKind)>, e: string)
    requires NoDefaultLabel(table)
    ensures FindHandler(table, e) == UnknownEvent <==> forall i :: 0 <= i < |table| ==> table[i].0 != e
    ensures FindHandler(table, e) != UnknownEvent ==>
              exists i :: 0 <= i < |table| && table[i] == (e, FindHandler(table, e))
    ensures LabelsDistinct(table) ==>
              forall i :: 0 <= i < |table| && table[i].0 == e ==> FindHandler(table, e) == table[i].1
  {
    if table != [] {
      var rest := table[1..];
      assert NoDefaultLabel(rest) by {
        forall i | 0 <= i < |rest| ensures rest[i].1 != UnknownEvent {
          assert rest[i] == table[i + 1];
        }
      }
      FindHandlerSpec(rest, e);
      if table[0].0 != e {
        forall i | 0 <= i < |rest| ensures rest[i].0 != e <==> table[i + 1].0 != e {
          assert rest[i] == table[i + 1];
        }
        if FindHandler(table, e) != UnknownEvent {
          var i :| 0 <= i < |rest| && rest[i] == (e, FindHandler(table, e));
          assert table[i + 1] == rest[i];
        }
        if LabelsDistinct(table) {
          assert LabelsDistinct(rest) by {
            forall i, j | 0 <= i < j < |rest| ensures rest[i].0 != rest[j].0 {
              assert rest[i] == table[i + 1] && rest[j] == table[j + 1];
            }
          }
          forall i | 0 <= i < |table| && table[i].0 == e ensures FindHandler(table, e) == table[i].1 {
            assert rest[i - 1] == table[i];
          }
        }
      } else {
        assert table[0] == (e, FindHandler(table, e));
      }
    }
  }

  /** The labels of rows `lo` to `hi - 1` differ from every later label. */
  predicate RowsDistinct(lo: int, hi: int)
  {
    forall i, j :: 0 <= lo <= i < hi && i < j < |AliasTable| ==> AliasTable[i].0 != AliasTable[j].0
  }

  // The table's rows handler by handler: each handler's labels differ from
  // every label listed after them.
  lemma OrderCreatedLabelsDistinct() ensures RowsDistinct(0, 3) { FirstLabelDistinct(); }
  lemma OrderSuccessLabelsDistinct() ensures RowsDistinct(3, 7) { }
  lemma OrderDeclinedLabelsDistinct() ensures RowsDistinct(7, 10) { }
  lemma SubscriptionCreatedLabelsDistinct() ensures RowsDistinct(10, 12) { }
  lemma SubscriptionCancelledLabelsDistinct() ensures RowsDistinct(12, 15) { }
  lemma SubscriptionRenewedLabelsDistinct() ensures RowsDistinct(15, 18) { }
  lemma RemainingLabelsDistinct() ensures RowsDistinct(18, 25) { }

  /** The first label, `order_created`, appears once. */
  lemma FirstLabelDistinct() ensures RowsDistinct(0, 1) { }

  /** No alias is listed twice, and none is the default. */
  lemma AliasTableWellFormed()
    ensures LabelsDistinct(AliasTable)
    ensures NoDefaultLabel(AliasTable)
  {
    OrderCreatedLabelsDistinct();
    OrderSuccessLabelsDistinct();
    OrderDeclinedLabelsDistinct();
    SubscriptionCreatedLabelsDistinct();
    SubscriptionCancelledLabelsDistinct();
    SubscriptionRenewedLabelsDistinct();
    RemainingLabelsDistinct();
    forall i, j | 0 <= i < j < |AliasTable| ensures AliasTable[i].0 != AliasTable[j].0 {
    }
  }

  /** The alias sets of different handlers are disjoint, and the catch-all
      handler has none. */
  lemma AliasesDisjoint(k1: HandlerKind, k2: HandlerKind)
    requires k1 != k2
    ensures Aliases(k1) !! Aliases(k2)
    ensures Aliases(UnknownEvent) == {}
  {
    AliasTableWellFormed();
  }

  /** In a table of distinct labels, a named handler is reached exactly
      from its own labels. */
  lemma FindHandlerAliases(table: seq<(string, HandlerKind)>, e: string, k: HandlerKind)
    requires LabelsDistinct(table) && NoDefaultLabel(table) && k != UnknownEvent
    ensures FindHandler(table, e) == k <==> e in AliasesIn(table, k)
  {
    FindHandlerSpec(table, e);
    if FindHandler(table, e) == k {
      var i :| 0 <= i < |table| && table[i] == (e, k);
      assert table[i].0 in AliasesIn(table, k);
    }
    if e in AliasesIn(table, k) {
      var i :| 0 <= i < |table| && table[i].1 == k && table[i].0 == e;
    }
  }

  /** An event type reaches a named handler exactly when its lower-cased
      form is one of that handler's aliases, and the catch-all exactly when
      it is none. */
  lemma RouteFollowsTable(eventType: string, k: HandlerKind)
    ensures k != UnknownEvent ==> (Route(eventType) == k <==> Lower(eventType) in Aliases(k))
    ensures Route(eventType) == UnknownEvent <==>
              !IsLabel(Lower(eventType))
  {
    AliasTableWellFormed();
    FindHandlerSpec(AliasTable, Lower(eventType));
    if k != UnknownEvent {
      FindHandlerAliases(AliasTable, Lower(eventType), k);
    }
  }

  /** Routing looks only at the lower-cased event type. */
  lemma RouteIgnoresCase(a: string, b: string)
    requires Lower(a) == Lower(b)
    ensures Route(a) == Route(b)
    ensures Route(a) == Route(Lower(a))
  {
    LowerIdempotent(a);
  }

  /** Rows of the table that an example lookup relies on. */
  lemma RouteByRow(eventType: string, i: int)
    requires 0 <= i < |AliasTable| && AliasTable[i].0 == Lower(eventType)
    ensures Route(eventType) == AliasTable[i].1
  {
    AliasTableWellFormed();
    FindHandlerSpec(AliasTable, Lower(eventType));
  }

  /** `approved` is an alias of the success handler. */
  lemma RouteApprovedExample()
    ensures Route("approved") == OrderSuccess
  {
    LowerKeepsLowercase("approved");
    RouteByRow("approved", 5);
  }

  /** Routing ignores case: `VOID` reaches the void handler. */
  lemma RouteUpperCaseExample()
    ensures Route("VOID") == Void
  {
    var u := "VOID";
    assert Lower(u) == "void" by {
      LowerLength(u);
    }
    RouteByRow(u, 23);
  }

  /** A lower-case event type is looked up as it is. */
  lemma RouteLowercase(e: string)
    requires Lower(e) == e
    ensures Route(e) == FindHandler(AliasTable, e)
  {
  }

  lemma OrderShippedIsNoLabel()
    ensures FindHandler(AliasTable, "order_shipped") == UnknownEvent
  {
    assert forall i :: 0 <= i < |AliasTable| ==> AliasTable[i].0 != "order_shipped";
    AliasTableWellFormed();
    FindHandlerSpec(AliasTable, "order_shipped");
  }

  /** `order_shipped` is not an alias, so it reaches the catch-all. */
  lemma RouteUnknownExample()
    ensures Route("order_shipped") == UnknownEvent
  {
    assert Lower("order_shipped") == "order_shipped" by {
      LowerKeepsLowercase("order_shipped");
    }
    RouteLowercase("order_shipped");
    OrderShippedIsNoLabel();
  }

  // ---------------------------------------------------------------------
  // Handlers

  /** The e-mails the handlers announce. */
  datatype EmailKind = Confirmation | Welcome | PaymentFailed(reason: Json) | CancellationNotice

  /** What a handler does, in order.  Every handler only logs; the trace
      records each helper it calls and the values it passes. */
  datatype Effect =
    | SendEmail(kind: EmailKind, to: Json)
    | UpdateStatus(orderId: Json, status: string)
    | ActivateAccess(customerId: Json)
    | CreateSubscription(subscriptionId: Json, customerId: Json, productId: Json,
                         billingCycle: Json, nextBillDate: Json)
    | CancelSubscription(subscriptionId: Json, customerId: Json)
    | RenewSubscription(subscriptionId: Json, customerId: Json)
    | ProcessRefund(orderId: Json, customerId: Json, amount: Json, reason: Json)
    | RecordChargeback(orderId: Json, customerId: Json, amount: Json, reason: Json)
    | ChargebackAlert(orderId: Json)
    | LogUnknownEvent
    | LogEvent(eventType: string, orderId: Json, customerId: Json)

  /** The order id the order handlers use: `data.order_id || data.id`
      (unlike the acknowledgement, they do not consult `orderId`). */
  function HandlerOrderId(data: map<string, Json>): Json
  {
    Or(Get(data, "order_id"), Get(data, "id"))
  }

  /** `data.email_address || data.email` */
  function HandlerEmail(data: map<string, Json>): Json
  {
    Or(Get(data, "email_address"), Get(data, "email"))
  }

  /** `data.decline_reason || data.reason || 'Payment failed'` */
  function DeclineReason(data: map<string, Json>): Json
  {
    Or(Or(Get(data, "decline_reason"), Get(data, "reason")), Str("Payment failed"))
  }

  /** `[e]` when `cond` holds, else nothing: an effect behind an `if`. */
  function When(cond: bool, e: Effect): seq<Effect>
  {
    if cond then [e] else []
  }

  /** `handleOrderCreated`: a confirmation e-mail when there is an
      address, then the status update. */
  function OrderCreatedTrace(data: map<string, Json>): seq<Effect>
  {
    var email := HandlerEmail(data);
    When(Truthy(email), SendEmail(Confirmation, email)) + [UpdateStatus(HandlerOrderId(data), "created")]
  }

  /** `handleOrderSuccess`: a welcome e-mail when there is an address,
      access when there is a customer id, then the status update. */
  function OrderSuccessTrace(data: map<string, Json>): seq<Effect>
  {
    var email := HandlerEmail(data);
    var customerId := CustomerIdOf(data);
    When(Truthy(email), SendEmail(Welcome, email))
    + When(Truthy(customerId), ActivateAccess(customerId))
    + [UpdateStatus(HandlerOrderId(data), "success")]
  }

  /** `handleOrderDeclined`: a payment-failed e-mail when there is an
      address, then the status update. */
  function OrderDeclinedTrace(data: map<string, Json>): seq<Effect>
  {
    var email := HandlerEmail(data);
    When(Truthy(email), SendEmail(PaymentFailed(DeclineReason(data)), email))
    + [UpdateStatus(HandlerOrderId(data), "declined")]
  }

  /** `handleSubscriptionCancelled`: access is cancelled, then a notice
      goes to `email_address` when it is truthy. */
  function SubscriptionCancelledTrace(data: map<string, Json>): seq<Effect>
  {
    var address := Get(data, "email_address");
    [CancelSubscription(Get(data, "subscription_id"), Get(data, "customer_id"))]
    + When(Truthy(address), SendEmail(CancellationNotice, address))
  }

  /** The switch's handler calls.  Every handler does something; only the
      catch-all logs an unknown event, and no handler logs the event itself
      (the POST handler does that afterwards). */
  function Dispatch(kind: HandlerKind, data: map<string, Json>): (es: seq<Effect>)
    ensures |es| >= 1
    ensures LogUnknownEvent in es <==> kind == UnknownEvent
    ensures forall i :: 0 <= i < |es| ==> !es[i].LogEvent?
  {
    match kind
    case OrderCreated => OrderCreatedTrace(data)
    case OrderSuccess => OrderSuccessTrace(data)
    case OrderDeclined => OrderDeclinedTrace(data)
    case SubscriptionCreated =>
      [CreateSubscription(Get(data, "subscription_id"), Get(data, "customer_id"), Get(data, "product_id"),
                          Get(data, "billing_cycle"), Get(data, "next_bill_date"))]
    case SubscriptionCancelled => SubscriptionCancelledTrace(data)
    case SubscriptionRenewed =>
      [RenewSubscription(Get(data, "subscription_id"), Get(data, "customer_id"))]
    case RefundIssued =>
      [ProcessRefund(Get(data, "order_id"), Get(data, "customer_id"), Get(data, "refund_amount"),
                     Get(data, "refund_reason"))]
    case Chargeback =>
      [RecordChargeback(Get(data, "order_id"), Get(data, "customer_id"), Get(data, "chargeback_amount"),
                        Get(data, "chargeback_reason")),
       ChargebackAlert(Get(data, "order_id"))]
    case Void => [UpdateStatus(Get(data, "order_id"), "voided")]
    case Cancel => [UpdateStatus(Get(data, "order_id"), "cancelled")]
    case UnknownEvent => [LogUnknownEvent]
  }

  /** The keys of `data` a forwarding handler passes on, in the order of the
      helper's arguments; empty for the handlers that do not forward a record. */
  function ForwardedKeys(kind: HandlerKind): seq<string>
  {
    match kind
    case SubscriptionCreated =>
      ["subscription_id", "customer_id", "product_id", "billing_cycle", "next_bill_date"]
    case SubscriptionCancelled => ["subscription_id", "customer_id"]
    case SubscriptionRenewed => ["subscription_id", "customer_id"]
    case RefundIssued => ["order_id", "customer_id", "refund_amount", "refund_reason"]
    case Chargeback => ["order_id", "customer_id", "chargeback_amount", "chargeback_reason"]
    case _ => []
  }

  /** The values a record effect carries, in argument order. */
  function Arguments(e: Effect): seq<Json>
  {
    match e
    case CreateSubscription(s, c, p, b, n) => [s, c, p, b, n]
    case CancelSubscription(s, c) => [s, c]
    case RenewSubscription(s, c) => [s, c]
    case ProcessRefund(o, c, a, r) => [o, c, a, r]
    case RecordChargeback(o, c, a, r) => [o, c, a, r]
    case _ => []
  }

  /** The subscription, refund and chargeback handlers start with one record
      whose arguments are read from the snake-case keys of `ForwardedKeys`,
      with no fallback.  Only the cancellation adds an e-mail and only the
      chargeback an alert for `order_id`. */
  lemma ForwardedFieldsRule(kind: HandlerKind, data: map<string, Json>)
    requires ForwardedKeys(kind) != []
    ensures var es := Dispatch(kind, data);
      && |Arguments(es[0])| == |ForwardedKeys(kind)|
      && (forall i :: 0 <= i < |ForwardedKeys(kind)| ==> Arguments(es[0])[i] == Get(data, ForwardedKeys(kind)[i]))
    ensures var es := Dispatch(kind, data);
      && (es[0].CreateSubscription? <==> kind == SubscriptionCreated)
      && (es[0].CancelSubscription? <==> kind == SubscriptionCancelled)
      && (es[0].RenewSubscription? <==> kind == SubscriptionRenewed)
      && (es[0].ProcessRefund? <==> kind == RefundIssued)
      && (es[0].RecordChargeback? <==> kind == Chargeback)
    ensures kind in {SubscriptionCreated, SubscriptionRenewed, RefundIssued} ==> |Dispatch(kind, data)| == 1
    ensures kind == Chargeback ==> Dispatch(kind, data)[1..] == [ChargebackAlert(Get(data, "order_id"))]
    ensures kind == SubscriptionCancelled ==>
      Dispatch(kind, data)[1..] == When(Truthy(Get(data, "email_address")),
                                        SendEmail(CancellationNotice, Get(data, "email_address")))
  {
  }

  /** The order status each handler records, if any. */
  function StatusFor(kind: HandlerKind): Option<string>
  {
    match kind
    case OrderCreated => Some("created")
    case OrderSuccess => Some("success")
    case OrderDeclined => Some("declined")
    case Void => Some("voided")
    case Cancel => Some("cancelled")
    case _ => None
  }

  /** The status updates of a trace, in order. */
  function StatusUpdates(es: seq<Effect>): seq<(Json, string)>
  {
    if es == [] then []
    else (if es[0].UpdateStatus? then [(es[0].orderId, es[0].status)] else []) + StatusUpdates(es[1..])
  }

  /** The addresses e-mailed in a trace, in order. */
  function Recipients(es: seq<Effect>): seq<Json>
  {
    if es == [] then []
    else (if es[0].SendEmail? then [es[0].to] else []) + Recipients(es[1..])
  }

  /** The customers granted access in a trace, in order. */
  function Activations(es: seq<Effect>): seq<Json>
  {
    if es == [] then []
    else (if es[0].ActivateAccess? then [es[0].customerId] else []) + Activations(es[1..])
  }

  lemma {:induction false} CollectAppend(a: seq<Effect>, b: seq<Effect>)
    ensures StatusUpdates(a + b) == StatusUpdates(a) + StatusUpdates(b)
    ensures Recipients(a + b) == Recipients(a) + Recipients(b)
    ensures Activations(a + b) == Activations(a) + Activations(b)
  {
    if a != [] {
      assert (a + b)[1..] == a[1..] + b;
      CollectAppend(a[1..], b);
    } else {
      assert a + b == b;
    }
  }

  /** The status updates of a handler's trace. */
  lemma DispatchStatuses(kind: HandlerKind, data: map<string, Json>)
    ensures StatusUpdates(Dispatch(kind, data)) ==
              if StatusFor(kind).None? then []
              else if kind == Void || kind == Cancel then [(Get(data, "order_id"), StatusFor(kind).value)]
              else [(HandlerOrderId(data), StatusFor(kind).value)]
  {
    match kind
    case OrderCreated => OrderCreatedPieces(data);
    case OrderSuccess => OrderSuccessPieces(data);
    case OrderDeclined => OrderDeclinedPieces(data);
    case SubscriptionCancelled => SubscriptionCancelledPieces(data);
    case Chargeback =>
      var es := Dispatch(kind, data);
      CollectAppend([es[0]], [es[1]]);
      assert es == [es[0]] + [es[1]];
    case SubscriptionCreated => CollectSingle(Dispatch(kind, data));
    case SubscriptionRenewed => CollectSingle(Dispatch(kind, data));
    case RefundIssued => CollectSingle(Dispatch(kind, data));
    case Void => CollectSingle(Dispatch(kind, data));
    case Cancel => CollectSingle(Dispatch(kind, data));
    case UnknownEvent => CollectSingle(Dispatch(kind, data));
  }

  /** The addresses a handler's trace e-mails. */
  lemma DispatchRecipients(kind: HandlerKind, data: map<string, Json>)
    ensures Recipients(Dispatch(kind, data)) ==
              if (kind == OrderCreated || kind == OrderSuccess || kind == OrderDeclined) && Truthy(HandlerEmail(data))
              then [HandlerEmail(data)]
              else if kind == SubscriptionCancelled && Truthy(Get(data, "email_address")) then [Get(data, "email_address")]
              else []
  {
    match kind
    case OrderCreated => OrderCreatedPieces(data);
    case OrderSuccess => OrderSuccessPieces(data);
    case OrderDeclined => OrderDeclinedPieces(data);
    case SubscriptionCancelled => SubscriptionCancelledPieces(data);
    case Chargeback =>
      var es := Dispatch(kind, data);
      CollectAppend([es[0]], [es[1]]);
      assert es == [es[0]] + [es[1]];
    case SubscriptionCreated => CollectSingle(Dispatch(kind, data));
    case SubscriptionRenewed => CollectSingle(Dispatch(kind, data));
    case RefundIssued => CollectSingle(Dispatch(kind, data));
    case Void => CollectSingle(Dispatch(kind, data));
    case Cancel => CollectSingle(Dispatch(kind, data));
    case UnknownEvent => CollectSingle(Dispatch(kind, data));
  }

  /** The customers a handler's trace grants access. */
  lemma DispatchActivations(kind: HandlerKind, data: map<string, Json>)
    ensures Activations(Dispatch(kind, data)) ==
              if kind == OrderSuccess && Truthy(CustomerIdOf(data)) then [CustomerIdOf(data)] else []
  {
    match kind
    case OrderCreated => OrderCreatedPieces(data);
    case OrderSuccess => OrderSuccessPieces(data);
    case OrderDeclined => OrderDeclinedPieces(data);
    case SubscriptionCancelled => SubscriptionCancelledPieces(data);
    case Chargeback =>
      var es := Dispatch(kind, data);
      CollectAppend([es[0]], [es[1]]);
      assert es == [es[0]] + [es[1]];
    case SubscriptionCreated => CollectSingle(Dispatch(kind, data));
    case SubscriptionRenewed => CollectSingle(Dispatch(kind, data));
    case RefundIssued => CollectSingle(Dispatch(kind, data));
    case Void => CollectSingle(Dispatch(kind, data));
    case Cancel => CollectSingle(Dispatch(kind, data));
    case UnknownEvent => CollectSingle(Dispatch(kind, data));
  }

  lemma OrderCreatedPieces(data: map<string, Json>)
    ensures StatusUpdates(OrderCreatedTrace(data)) == [(HandlerOrderId(data), "created")]
    ensures Recipients(OrderCreatedTrace(data)) == if Truthy(HandlerEmail(data)) then [HandlerEmail(data)] else []
    ensures Activations(OrderCreatedTrace(data)) == []
  {
    var email := HandlerEmail(data);
    CollectAppend(When(Truthy(email), SendEmail(Confirmation, email)), [UpdateStatus(HandlerOrderId(data), "created")]);
  }

  lemma OrderSuccessPieces(data: map<string, Json>)
    ensures StatusUpdates(OrderSuccessTrace(data)) == [(HandlerOrderId(data), "success")]
    ensures Recipients(OrderSuccessTrace(data)) == if Truthy(HandlerEmail(data)) then [HandlerEmail(data)] else []
    ensures Activations(OrderSuccessTrace(data)) == if Truthy(CustomerIdOf(data)) then [CustomerIdOf(data)] else []
  {
    var email := HandlerEmail(data);
    var customerId := CustomerIdOf(data);
    var w := When(Truthy(email), SendEmail(Welcome, email));
    var a := When(Truthy(customerId), ActivateAccess(customerId));
    CollectAppend(w, a);
    CollectAppend(w + a, [UpdateStatus(HandlerOrderId(data), "success")]);
  }

  lemma OrderDeclinedPieces(data: map<string, Json>)
    ensures StatusUpdates(OrderDeclinedTrace(data)) == [(HandlerOrderId(data), "declined")]
    ensures Recipients(OrderDeclinedTrace(data)) == if Truthy(HandlerEmail(data)) then [HandlerEmail(data)] else []
    ensures Activations(OrderDeclinedTrace(data)) == []
  {
    var email := HandlerEmail(data);
    CollectAppend(When(Truthy(email), SendEmail(PaymentFailed(DeclineReason(data)), email)),
                  [UpdateStatus(HandlerOrderId(data), "declined")]);
  }

  lemma SubscriptionCancelledPieces(data: map<string, Json>)
    ensures StatusUpdates(SubscriptionCancelledTrace(data)) == []
    ensures Recipients(SubscriptionCancelledTrace(data)) ==
              if Truthy(Get(data, "email_address")) then [Get(data, "email_address")] else []
    ensures Activations(SubscriptionCancelledTrace(data)) == []
  {
    var address := Get(data, "email_address");
    CollectAppend([CancelSubscription(Get(data, "subscription_id"), Get(data, "customer_id"))],
                  When(Truthy(address), SendEmail(CancellationNotice, address)));
  }

  lemma CollectSingle(es: seq<Effect>)
    requires |es| == 1
    ensures StatusUpdates(es) == if es[0].UpdateStatus? then [(es[0].orderId, es[0].status)] else []
    ensures Recipients(es) == if es[0].SendEmail? then [es[0].to] else []
    ensures Activations(es) == if es[0].ActivateAccess? then [es[0].customerId] else []
  {
    assert es[1..] == [];
  }

  /** The order handlers record one status, against `order_id` or else
      `id`; void and cancel record theirs against `order_id` alone; the
      other handlers record none. */
  lemma StatusUpdateRule(kind: HandlerKind, data: map<string, Json>)
    ensures StatusFor(kind).None? <==> StatusUpdates(Dispatch(kind, data)) == []
    ensures kind in {OrderCreated, OrderSuccess, OrderDeclined} ==>
              StatusUpdates(Dispatch(kind, data)) == [(HandlerOrderId(data), StatusFor(kind).value)]
    ensures kind in {Void, Cancel} ==>
              StatusUpdates(Dispatch(kind, data)) == [(Get(data, "order_id"), StatusFor(kind).value)]
  {
    DispatchStatuses(kind, data);
  }

  /** E-mail goes out at most once per event, only to a truthy address,
      and only from the created, success, declined and
      subscription-cancelled handlers, the last reading `email_address`
      alone. */
  lemma EmailRule(kind: HandlerKind, data: map<string, Json>)
    ensures |Recipients(Dispatch(kind, data))| <= 1
    ensures forall i :: 0 <= i < |Recipients(Dispatch(kind, data))| ==> Truthy(Recipients(Dispatch(kind, data))[i])
    ensures kind in {OrderCreated, OrderSuccess, OrderDeclined} ==>
              (Recipients(Dispatch(kind, data)) == if Truthy(HandlerEmail(data)) then [HandlerEmail(data)] else [])
    ensures kind == SubscriptionCancelled ==>
              (Recipients(Dispatch(kind, data)) ==
                 if Truthy(Get(data, "email_address")) then [Get(data, "email_address")] else [])
    ensures kind !in {OrderCreated, OrderSuccess, OrderDeclined, SubscriptionCancelled} ==>
              Recipients(Dispatch(kind, data)) == []
  {
    DispatchRecipients(kind, data);
  }

  /** Access is granted only by the success handler, and there exactly
      when the payload carries a truthy customer id. */
  lemma AccessRule(kind: HandlerKind, data: map<string, Json>)
    ensures Activations(Dispatch(kind, data)) != [] <==> kind == OrderSuccess && Truthy(CustomerIdOf(data))
    ensures Activations(Dispatch(kind, data)) != [] ==> Activations(Dispatch(kind, data)) == [CustomerIdOf(data)]
  {
    DispatchActivations(kind, data);
  }

  /** A declined payment's e-mail gives the first truthy of `decline_reason`
      and `reason`, else 'Payment failed'. */
  lemma DeclineReasonRule(data: map<string, Json>)
    ensures Truthy(HandlerEmail(data)) ==>
              Dispatch(OrderDeclined, data)[0] == SendEmail(PaymentFailed(DeclineReason(data)), HandlerEmail(data))
    ensures Truthy(DeclineReason(data))
    ensures Truthy(Get(data, "decline_reason")) ==> DeclineReason(data) == Get(data, "decline_reason")
    ensures !Truthy(Get(data, "decline_reason")) && Truthy(Get(data, "reason")) ==>
              DeclineReason(data) == Get(data, "reason")
    ensures !Truthy(Get(data, "decline_reason")) && !Truthy(Get(data, "reason")) ==>
              DeclineReason(data) == Str("Payment failed")
  {
  }

  // ---------------------------------------------------------------------
  // POST and GET

  /** The JSON acknowledgement: the success body, or the body of the outer
      `catch`. */
  datatype Ack =
    | Processed(message: string, orderId: Json, customerId: Json)
    | ProcessingFailed

  datatype WebhookReply = WebhookReply(status: int, ack: Ack, effects: seq<Effect>)

  /** `POST`: reading the payload, routing on the lower-cased event type,
      running the handler and logging the event.  Reading a key of `null`
      and calling `toLowerCase` on a non-string event type both throw; the
      catch still answers 200. */
  function HandleWebhook(body: WebhookBody): (r: WebhookReply)
    ensures r.status == 200
    ensures r.ack.ProcessingFailed? ==> r.effects == []
    ensures r.ack.Processed? ==> |r.effects| >= 2 && r.effects[|r.effects| - 1].LogEvent?
  {
    match Payload(body)
    case None => WebhookReply(200, ProcessingFailed, [])
    case Some(data) =>
      var eventType := EventType(data);
      if !eventType.Str? then WebhookReply(200, ProcessingFailed, [])
      else
        var s := eventType.s;
        var effects := Dispatch(Route(s), data) + [LogEvent(s, OrderIdOf(data), CustomerIdOf(data))];
        WebhookReply(200, Processed("Webhook " + s + " processed successfully", OrderIdOf(data), CustomerIdOf(data)),
                     effects)
  }

  /** A payload whose event type is the string `s`. */
  lemma ProcessedReply(body: WebhookBody, data: map<string, Json>, s: string)
    requires Payload(body) == Some(data) && EventType(data) == Str(s)
    ensures HandleWebhook(body) ==
              WebhookReply(200, Processed("Webhook " + s + " processed successfully", OrderIdOf(data), CustomerIdOf(data)),
                           Dispatch(Route(s), data) + [LogEvent(s, OrderIdOf(data), CustomerIdOf(data))])
  {
  }

  /** The acknowledgement fails exactly when the payload is `null` or the
      event type read is truthy but not a string; otherwise it echoes the
      event type and the extracted ids. */
  lemma WebhookAck(body: WebhookBody)
    ensures HandleWebhook(body).ack.ProcessingFailed? <==>
              Payload(body).None? || !EventType(Payload(body).value).Str?
    ensures Payload(body).Some? && EventType(Payload(body).value).Str? ==>
              var data := Payload(body).value;
              HandleWebhook(body).ack ==
                Processed("Webhook " + EventType(data).s + " processed successfully", OrderIdOf(data), CustomerIdOf(data))
  {
  }

  /** An event type that is an alias of a named handler runs that
      handler, then the event log. */
  lemma WebhookRouting(body: WebhookBody, data: map<string, Json>, s: string, k: HandlerKind)
    requires Payload(body) == Some(data) && EventType(data) == Str(s)
    requires k != UnknownEvent && Lower(s) in Aliases(k)
    ensures HandleWebhook(body).effects == Dispatch(k, data) + [LogEvent(s, OrderIdOf(data), CustomerIdOf(data))]
  {
    assert Route(s) == k by {
      RouteFollowsTable(s, k);
    }
    ProcessedReply(body, data, s);
  }

  /** An event type that is no alias runs the unknown-event log, then the
      event log. */
  lemma WebhookUnrouted(body: WebhookBody, data: map<string, Json>, s: string)
    requires Payload(body) == Some(data) && EventType(data) == Str(s)
    requires !IsLabel(Lower(s))
    ensures HandleWebhook(body).effects == [LogUnknownEvent, LogEvent(s, OrderIdOf(data), CustomerIdOf(data))]
  {
    assert Route(s) == UnknownEvent by {
      RouteFollowsTable(s, UnknownEvent);
    }
    ProcessedReply(body, data, s);
    UnknownTrace(data, LogEvent(s, OrderIdOf(data), CustomerIdOf(data)));
  }

  lemma UnknownTrace(data: map<string, Json>, log: Effect)
    ensures Dispatch(UnknownEvent, data) + [log] == [LogUnknownEvent, log]
  {
  }

  lemma VoidTrace(data: map<string, Json>, log: Effect)
    ensures Dispatch(Void, data) + [log] == [UpdateStatus(Get(data, "order_id"), "voided"), log]
  {
  }

  /** A form-encoded body is always acknowledged as processed: its values
      are strings, so the event type can always be lower-cased. */
  lemma FormBodyProcessed(pairs: seq<(string, string)>)
    ensures HandleWebhook(NotJson(pairs)).ack.Processed?
  {
    var data := FormDecode(pairs);
    FormDecodeKeys(pairs);
    assert Get(data, "event_type").Undefined? || Get(data, "event_type").Str?;
  }

  /** A JSON `null` body is acknowledged as a failure with nothing done. */
  lemma NullBodyFails()
    ensures HandleWebhook(JsonNull) == WebhookReply(200, ProcessingFailed, [])
  {
  }

  /** The payload of the example below. */
  function VoidPayload(): map<string, Json>
  {
    map["event_type" := Str("VOID"), "order_id" := Str("42")]
  }

  lemma VoidPayloadReads()
    ensures EventType(VoidPayload()) == Str("VOID")
    ensures OrderIdOf(VoidPayload()) == Str("42") && Get(VoidPayload(), "order_id") == Str("42")
    ensures CustomerIdOf(VoidPayload()) == Undefined
  {
  }

  /** An upper-case alias: the void handler marks the order voided, and the
      acknowledgement echoes the event type as sent. */
  lemma WebhookExample()
    ensures HandleWebhook(JsonObject(VoidPayload()))
            == WebhookReply(200, Processed("Webhook " + "VOID" + " processed successfully", Str("42"), Undefined),
                            [UpdateStatus(Str("42"), "voided"), LogEvent("VOID", Str("42"), Undefined)])
  {
    var data := VoidPayload();
    VoidPayloadReads();
    RouteUpperCaseExample();
    ProcessedReply(JsonObject(data), data, "VOID");
    VoidTrace(data, LogEvent("VOID", Str("42"), Undefined));
  }

  /** The answer to `GET`: the echoed challenge as plain text, or the JSON
      health payload. */
  datatype GetReply = ChallengeEcho(text: string) | Health(status: string, endpoint: string)

  /** `GET`: a non-empty `challenge` query parameter is echoed verbatim;
      without one (or with an empty one) the endpoint reports itself. */
  function HandleGet(challenge: Option<string>): (r: GetReply)
    ensures r.ChallengeEcho? <==> challenge.Some? && challenge.value != ""
    ensures r.ChallengeEcho? ==> r.text == challenge.value
    ensures r.Health? ==> r.endpoint == "/api/webhooks/sticky"
  {
    match challenge
    case Some(c) => if c != "" then ChallengeEcho(c) else Health("Webhook endpoint is active and ready", "/api/webhooks/sticky")
    case None => Health("Webhook endpoint is active and ready", "/api/webhooks/sticky")
  }
}
